=== FILE: README.md ===
# VirtPilot alert engine and panel-response normalisation, in Dafny

VirtPilot is a Telegram bot that manages virtual machines through a
Virtualizor-style hosting panel. This project models the part of `bot.py`
that does real work, independently of the chat UI:

- **Panel-response normalisation.** Panels of different versions answer in
  different JSON shapes. `pick_vps_list` finds the VM list under a
  well-known key, or falls back to a bounded deep scan
  (`deep_find_vps_list`) that collects VM-like records and dedupes them by
  `vpsid`. `pick_vps_details` finds a VM's detail record. Decoded JSON is the
  `Json` datatype; a dict is an ordered sequence of `Field`s.
- **Usage and levels.** Legacy field aliases give used/total disk and
  bandwidth. `compute_percent` turns them into a truncated percentage, and
  `classify_level` turns that into `ok`/`warn`/`critical` against the user's
  thresholds. The threshold input (`parse_percent`) and the panel-URL input
  (`normalize_panel_url`, `is_valid_url`) are modelled too.
- **The alert engine.** The `alert_state` table is a class over a map keyed
  by (user, profile, VM id). The per-VM decision says which disk, bandwidth,
  suspend and unsuspend notices one poll sends and which row it writes back.
  One sweep over users, profiles and VMs exists twice: as folds (`Swept`,
  `PolledProfiles`, `PolledVms`), and as imperative methods (`Sweep`,
  `PollUser`, `PollProfile`, `PollVms`, `PollVm`) proved equal to those folds. Sent
  notices go to an append-only `Outbox`.
- **The `alert_settings` table.** Reading settings, the defaults, and the
  update statement. The update takes the value encoding as a parameter:
  `EncodeAsWritten` is bot.py:124 with the precedence bug described under
  Findings, and `Encode` is the corrected statement. Saving the threshold
  form is modelled with both.

The panel's replies during a sweep are inputs, not calls. Each profile's
list reply is `Some(json)`, or `None` when the request raised. Each VM's
detail reply is given per position of its VM list, `None` when that request
raised, so a VM listed twice gets two independent replies.
The users and their settings are given in sweep order.

Modules: `Text` (Python string helpers), `Wrappers` and `Json` (decoded
values, dict lookup and update, `str`/`repr`), `Normalize`, `Usage`, `Panel`
(query merge and reply wrapping of `v_api_request`), `Alerts`,
`SettingsTable`, `Scenarios` (worked examples).

## Model

| member | source | states |
|---|---|---|
| Json.PutGet | bot.py:382-386 | after `d[k] = v`, `k` reads `v` and every other key reads as before; the key set grows by `k` only; a dict with distinct keys keeps them distinct |
| Json.StrOrEmpty | bot.py:900-902 | `str(x or "")` is empty exactly when `x` is falsy, so a VM is skipped exactly when its `vpsid` is falsy |
| Normalize.NormalizeItem | bot.py:320-326 | an existing `vpsid` is kept; otherwise `vps_id`, else `id`, is copied to a new `vpsid` entry at the end; with none of the three the record is unchanged |
| Normalize.LooksLikeVps | bot.py:328-335 | (definition, no ensures) a record with `vpsid`, or with `hostname`/`name`/`primary_ip`/`ip` and no `uid`; characterised against the filter by `AcceptedIff` |
| Normalize.AcceptedIff | bot.py:320-335 | a record passes normalise-then-filter exactly when it has `vpsid`, `vps_id` or `id`, or has `hostname`/`name`/`primary_ip`/`ip` and no `uid` |
| Normalize.NormalizeIdempotent | bot.py:320-326 | normalising twice equals normalising once |
| Normalize.NormalizeKeepsOtherKeys | bot.py:320-326 | every key other than `vpsid` reads as before; distinct keys stay distinct |
| Normalize.Accepted | bot.py:354-358 | the filtered list is no longer than the input; every entry is a VM-like dict; each is the normalised copy of some dict of the input |
| Normalize.AcceptedSingle | bot.py:354-358 | one entry is kept, as its normalised copy, exactly when it is a dict whose copy looks like a VM; otherwise nothing is kept |
| Normalize.AcceptedAppend | bot.py:354-358 | the filter works entry by entry: filtering a concatenation gives the kept entries of each part, in input order |
| Normalize.AcceptedEmptyIff | bot.py:354-360 | the filtered list is empty exactly when no dict entry's normalised copy looks like a VM, which decides the `len(items) >= 1` and `if out:` tests |
| Normalize.CollectAccepted | bot.py:396-401 | the filter loop returns exactly `Accepted` of its input |
| Normalize.WalkedExtends | bot.py:345-377 | one `walk` call only raises the visit counter, never past `limit + 1` once within it; it only appends to `found`, and only VM records |
| Normalize.WalkedListExtends | bot.py:362-363 | the same for walking a list's children in order |
| Normalize.WalkedFieldsExtends | bot.py:376-377 | the same for walking a dict's values in order |
| Normalize.ScanBounded | bot.py:342-379 | from a fresh state the scan visits at most `limit + 1` nodes, and everything it found is a VM record |
| Normalize.ExhaustedIsFinal | bot.py:347-348 | once the counter is past `limit` or more than 500 records were found, walking further nodes changes nothing |
| Normalize.CollectionNotDescended | bot.py:351-361 | a non-empty list of dicts with some VM-like entry is taken whole: one visit, its filtered records appended, no child walked |
| Normalize.DictCollectionNotDescended | bot.py:365-375 | the same for a non-empty dict whose values are all dicts |
| Normalize.UniqKeys | bot.py:382-386 | the dedup dict holds exactly one slot per distinct non-empty id that occurs in `found` |
| Normalize.UniqLastWins | bot.py:382-386 | each slot holds the last record seen with that id |
| Normalize.UniqFirstSeenOrder | bot.py:382-386 | slots are ordered by the first sighting of their ids |
| Normalize.DeepFoundShape | bot.py:379-387 | with no id anywhere the raw `found` list is returned; otherwise one record per distinct id, the last seen, in first-seen order; every result is a VM record |
| Normalize.Walked | bot.py:345-377 | (definition, no ensures) the threaded state after `walk(x)`: the visit counter and `found`; specified by `WalkedExtends`, `ScanBounded`, `ExhaustedIsFinal` and the two collection lemmas |
| Normalize.Uniq | bot.py:380-386 | (definition, no ensures) the `uniq` dict built from `found`; specified by `UniqKeys`, `UniqLastWins` and `UniqFirstSeenOrder` |
| Normalize.IdOf | bot.py:384 | (definition, no ensures) `str(it.get("vpsid") or "")`, the id a record is known by, used at bot.py:900 too; see `UniqKeys` and `PolledVmsWrites` |
| Normalize.Deduped | bot.py:387 | (definition, no ensures) the uniq values, or `found` when none has an id; specified by `DeepFoundShape` |
| Normalize.DeepFound | bot.py:337-387 | (definition, no ensures) `deep_find_vps_list`; specified by `DeepFoundShape` |
| Normalize.Walk | bot.py:345-377 | the recursive walk method computes exactly `Walked` |
| Normalize.WalkList | bot.py:362-363 | the child loop over a list computes exactly `WalkedList` |
| Normalize.WalkFields | bot.py:376-377 | the child loop over dict values computes exactly `WalkedFields` |
| Normalize.DeepFindVpsList | bot.py:337-387 | the method (walk, then the dedup loop) returns exactly `DeepFound` |
| Normalize.VpsList | bot.py:389-416 | (definition) `pick_vps_list`; its one ensures (a non-dict reply gives no VMs) is the only part it states itself; specified by `VpsListFirstMatch`, `VpsListFallback` and `VpsListRecords` |
| Normalize.VpsListRecords | bot.py:389-416 | every entry `pick_vps_list` returns is a VM-like dict |
| Normalize.VpsListFirstMatch | bot.py:393-413 | the first of `vs`, `vps`, `data`, `result` whose list or dict yields records decides the answer |
| Normalize.VpsListFallback | bot.py:415-416 | only when no well-known key yields records is the deep scan (limit 5000) used |
| Normalize.PickVpsList | bot.py:389-416 | the method returns exactly `VpsList` |
| Normalize.DetailFrom | bot.py:421-425 | a dict reply always yields a dict |
| Normalize.PickVpsDetails | bot.py:418-425 | a non-dict reply gives `{}`; the result is always a dict |
| Normalize.DetailsFirstMatch | bot.py:421-424 | the first of `info`, `vps`, `vs`, `data`, `result` holding a dict with `vpsid`/`hostname`/`name`/`primary_ip`/`ip` is the detail record |
| Normalize.DetailsFallback | bot.py:425 | with no such key the whole reply is the detail record |
| Usage.ComputePercent | bot.py:433-436 | no percentage for a total of 0 or less; otherwise the floor `p` of `100 * used / total`, given as `p * total <= 100 * used < (p + 1) * total` |
| Usage.PercentMonotone | bot.py:433-436 | for a fixed positive total the percentage never drops as usage grows |
| Usage.PercentTruncates | bot.py:433-436 | usage strictly below `p` percent reports less than `p` (truncation, not rounding) |
| Usage.Classify | bot.py:438-445 | (definition) the threshold comparison as written; specified by `ClassifyMonotone` (a higher percentage never gives a lower level) and `CriticalBeforeWarn` (with critical below warn, every percentage from critical up is `critical` and `warn` is never reported) |
| Usage.ClassifyMonotone | bot.py:438-445 | a higher percentage never gives a milder level |
| Usage.CriticalBeforeWarn | bot.py:440-443 | with critical < warn, every pct >= critical is `critical` and `warn` never occurs |
| Usage.ParsePercent | bot.py:447-454 | (definition) the form parser as written; specified by `ParsePercentDecimal` (the decimal text of 1..100 parses to itself), `ParsePercentWithSign` (a trailing `%`/`٪` is ignored) and `ParsePercentOutOfRange` (0 and values above 100 are refused) |
| Usage.ParsePercentDecimal | bot.py:447-454 | every n in 1..100 written in decimal parses back to n |
| Usage.ParsePercentWithSign | bot.py:447-454 | the same with a trailing `%` or `٪` |
| Usage.ParsePercentOutOfRange | bot.py:451-453 | 0 and anything above 100 are refused |
| Usage.NormalizePanelUrl | bot.py:290-291 | the result is a prefix of the stripped text; only `/` characters were dropped; it does not end in `/` |
| Usage.IsValidUrl | bot.py:293-294 | (definition) the `re.match` test as written; specified by `NormalizedValidWasValid` (a URL still valid after `normalize_panel_url` was valid before) and `BareSchemeRefusedAfterNormalizing` |
| Usage.NormalizedValidWasValid | bot.py:290-294 | a URL that is valid after normalising was valid as typed |
| Usage.BareSchemeRefusedAfterNormalizing | bot.py:290-294 | the converse fails: any URL that strips to the bare scheme `http://` is valid as typed, but its normalised form `http:` is refused |
| Usage.ParseIntText | bot.py:427-431 | (definition) `int(s)` on text; specified by `ParseIntTextRoundTrip` (the decimal text of every integer converts back to it) |
| Usage.ParseIntTextRoundTrip | bot.py:427-431 | `int(str(i)) == i` for every integer, negative ones included |
| Usage.ToNumber | bot.py:427-431 | (definition) the `int(v)` step of `to_int`; specified by `ToNumberPrinted` |
| Usage.ToNumberPrinted | bot.py:427-431 | an integer and its printed text convert to the same number, and `to_int` of the text gives it back |
| Usage.ToInt | bot.py:427-431 | (definition) `to_int` with its fallback; specified by `ToNumberPrinted` and `NoSuspendFieldIsZero` |
| Usage.OrChain | bot.py:457-459 | (definition, no ensures) the value of an `a or b or ...` alias chain; specified by `OrChainFirstTruthy`, `OrChainNoneTruthy` and `OrChainTruthyIff` |
| Usage.OrChainTruthyIff | bot.py:457-459 | the chain is truthy iff some alias is, and then it is the value of the first truthy alias |
| Usage.OrChainFirstTruthy | bot.py:458-459 | the alias chain yields the first truthy alias value |
| Usage.OrChainNoneTruthy | bot.py:458-459 | with no truthy alias the chain yields the last alias's value |
| Usage.ExtractUsage | bot.py:456-471 | (definition) the alias chains of `extract_*_usage`; specified by `MissingUsageIsNone` (no alias present gives no pair) and `ZeroFallsThrough` (a falsy 0 under an early alias is skipped for a later one) |
| Usage.MissingUsageIsNone | bot.py:456-463 | a usage field missing under every alias gives no usage |
| Usage.ZeroFallsThrough | bot.py:458 | a 0 under earlier aliases falls through to a later non-zero one |
| Usage.UsagePercent | bot.py:919-920 | a percentage only when used and total are both non-zero and the total is positive, and then `ComputePercent` of them |
| Usage.ZeroUsedIsUnknown | bot.py:919-923 | zero usage classifies as no level at all, not `ok` |
| Panel.BuildQuery | bot.py:300-303 | with distinct parameter names, the query has no repeated key, every parameter reads as given, and `act`, `api=json`, `apikey`, `apipass` read as the fixed values unless a parameter overrides them |
| Panel.UpdatedReads | bot.py:301-303 | after `q.update(params)` every parameter reads as given, every other key as before, and no key repeats |
| Panel.DetailQuery | bot.py:301-303 | the detail request carries the VM id, `act=managevs`, `api=json` and the credentials |
| Panel.WrapResponse | bot.py:316-318 | the result is always a dict; a dict reply is returned unchanged; anything else is wrapped as the single entry `raw` |
| Alerts.RowOf | bot.py:174-186 | (definition) the row `get_alert_state` reads; specified by `UpsertOnlyThatKey` and `DeletedProfileReadsEmpty` |
| Alerts.WithoutProfile | bot.py:168-172 | (definition) the table after the `DELETE`; specified by `DeletedProfileReadsEmpty` (every row of the profile then reads as empty, every other row as before) |
| Alerts.UpsertOnlyThatKey | bot.py:188-200 | an upsert makes its key read the new row, leaves every other key as it was, and adds only that key |
| Alerts.DeletedProfileReadsEmpty | bot.py:168-186 | after deleting a profile every VM of it reads as a missing row; other keys read as before |
| Alerts.AlertStore.Get | bot.py:174-186 | (definition) returns `RowOf` of the table; what that reads after an upsert or a delete is stated by `UpsertOnlyThatKey` and `DeletedProfileReadsEmpty` |
| Alerts.AlertStore.Set | bot.py:188-200 | the table becomes the old table with that key mapped to the new row |
| Alerts.AlertStore.DeleteProfile | bot.py:168-172 | the table becomes `WithoutProfile` of the old table |
| Alerts.SuspendFlag | bot.py:914 | (definition, no ensures) `to_int` of the `OrChain` over `suspended`, `is_suspended`, else 0; see `NoSuspendFieldIsZero` |
| Alerts.FirstTruthyText | bot.py:911-912 | the printed value of the first truthy alias, the fallback when none is truthy, and never empty when the fallback is not |
| Alerts.DiskLevel | bot.py:922 | (definition, no ensures) `classify_level` of the disk percentage with the user's disk thresholds; see `LevelNoticeIff` |
| Alerts.BwLevel | bot.py:923 | (definition, no ensures) the same for bandwidth; see `LevelNoticeIff` |
| Alerts.Observe | bot.py:910-920 | the observation of one detail record; its name and address are never empty, since the fallbacks are `VPS <id>` and `-` and a truthy value prints non-empty |
| Alerts.VmNotices | bot.py:927-944 | (definition, no ensures) the notices one poll sends, in order; specified by `LevelNoticeIff`, `SuspendNoticeIff`, `FirstPollNoSuspendNotice`, `NoRepeatNotices` and `CalmingDownIsSilent` |
| Alerts.NewRow | bot.py:946-951 | (definition, no ensures) the row written back: both levels and the observed suspend flag, whatever was sent; used by `PolledVmsWrites` and `NoRepeatNotices` |
| Alerts.NoSuspendFieldIsZero | bot.py:914 | a reply with neither `suspended` nor `is_suspended` reads as not suspended |
| Alerts.LevelNoticeIff | bot.py:927-937 | a disk notice, carrying the level and percentage, is sent iff the new level is `warn`/`critical` and differs from the stored one; the same for bandwidth; at most three notices, all to the polled user |
| Alerts.SuspendNoticeIff | bot.py:939-944 | a suspend notice iff suspend alerts are on and the flag went from a stored 0 to 1; an unsuspend notice iff it went from a stored 1 to 0 |
| Alerts.FirstPollNoSuspendNotice | bot.py:939-951 | with no stored row no suspend or unsuspend notice is sent, and the observed flag is stored |
| Alerts.NoRepeatNotices | bot.py:927-951 | a second poll with the same observation, after its row was stored, sends nothing |
| Alerts.CalmingDownIsSilent | bot.py:927 | moving to `ok` or to no level never sends a disk notice |
| Alerts.PolledVm | bot.py:900-951 | (definition, no ensures) one VM step on the table and the log; skips an empty id or a failed reply |
| Alerts.PolledVms | bot.py:899-951 | (definition, no ensures) the VM loop as a fold, each entry with the reply of its own list position |
| Alerts.PolledProfile | bot.py:887-951 | (definition, no ensures) one profile; a failed list request changes nothing |
| Alerts.PolledProfiles | bot.py:887-951 | (definition, no ensures) the `for pr in profiles` loop as a fold; specified by `ProfilesFrame` and `PollUser` |
| Alerts.PolledUser | bot.py:881-951 | (definition, no ensures) one user; alerts off changes nothing |
| Alerts.Swept | bot.py:881-951 | (definition, no ensures) the sweep over users in order; specified by `SweptFrame` and `SweepWritesOnlyPolledRows`, and the `Sweep` method is proved equal to it |
| Alerts.PolledVmFrame | bot.py:900-951 | one VM step only appends to the log and writes at most that VM's row, and only when its id is non-empty and its detail request succeeded |
| Alerts.PolledVmsFrame | bot.py:899-951 | a profile's VM loop only appends notices, and touches only rows of that profile whose id has a listed entry with a successful detail request |
| Alerts.ProfileFrame | bot.py:893-951 | the same for one profile; a failed list request writes nothing |
| Alerts.ProfilesFrame | bot.py:887-951 | a user's profile loop touches only keys some profile may write |
| Alerts.SweptFrame | bot.py:881-951 | the sweep touches only keys some enabled user's profile may write, and only appends to the log |
| Alerts.SweepWritesOnlyPolledRows | bot.py:881-951 | a key outside every polled, enabled, successful (user, profile, VM) keeps its presence and its row; the log only grows |
| Alerts.DisabledUserSkipped | bot.py:883-884 | a user with alerts off changes nothing |
| Alerts.FailedListingSkipsProfile | bot.py:893-897 | a failed list request skips the whole profile |
| Alerts.PolledVmsWrites | bot.py:899-951 | a listed entry with a non-empty id and a successful detail request, which no later answered entry with the same id follows, ends with its row upserted from that entry's own reply; for a VM listed twice the last answered entry decides |
| Alerts.FailedDetailSkipsOnlyThatVm | bot.py:904-908 | a VM all of whose detail requests failed keeps its row, while another VM of the same list still gets its new row |
| Alerts.Outbox.Send | bot.py:928-931 | the sent log becomes the old log plus that notice |
| Alerts.SendNotices | bot.py:927-944 | the method sends exactly `VmNotices`, in order |
| Alerts.PollVm | bot.py:899-951 | one VM step leaves table and log equal to `PolledVm` of the old ones |
| Alerts.PollVms | bot.py:899-951 | the VM loop leaves table and log equal to `PolledVms` of the old ones, each entry polled with the reply for its own list position |
| Alerts.PollProfile | bot.py:887-951 | one profile leaves table and log equal to `PolledProfile` of the old ones |
| Alerts.PollUser | bot.py:881-951 | one user leaves table and log equal to `PolledUser` of the old ones |
| Alerts.Sweep | bot.py:874-951 | one sweep leaves table and log equal to `Swept` of the old ones |
| SettingsTable.DefaultRowReadsDefaults | bot.py:69-77 | a freshly inserted row reads as alerts on, 80/100 for disk and bandwidth, suspend alerts on |
| SettingsTable.Read | bot.py:108-115 | (definition, no ensures) `get_alert_settings` on a stored row: non-zero toggles read as on, thresholds as stored; see `DefaultRowReadsDefaults` |
| SettingsTable.EncodeAsWritten | bot.py:124 | as written, every value is stored as 0 or 1, and as 1 exactly when it is truthy |
| SettingsTable.Applied | bot.py:117-129 | (definition, no ensures) the assignments applied to a row in order under a value encoding; see `ThresholdsRoundTrip`, `ThresholdsCollapseAsWritten` and `ToggleRoundTrip` |
| SettingsTable.Encode | bot.py:124 | (definition) the intended encoding; specified by `EncodingsAgreeIff` (it agrees with the code as written exactly on booleans, 0 and 1) and `ThresholdsRoundTrip` |
| SettingsTable.EncodingsAgreeIff | bot.py:124 | the as-written and intended encodings agree on every boolean, and on an integer iff it is 0 or 1 |
| SettingsTable.ThresholdsRoundTrip | bot.py:117-129 | with the intended encoding the threshold form stores exactly its four numbers and leaves both toggles alone |
| SettingsTable.ThresholdsCollapseAsWritten | bot.py:124 | as written, every threshold from 1 to 100 is stored as 1, and the two toggles are left as they were |
| SettingsTable.CollapsedThresholdsMisclassify | bot.py:124 | after saving 80/100 as written, 5% disk usage is `critical`; with the intended encoding it is `ok` |
| SettingsTable.ToggleRoundTrip | bot.py:778-797 | a toggle reads back the value written with either encoding and changes no other setting |
| SettingsTable.SettingsStore.Ensure | bot.py:92-98 | a user without a row gets the default row; an existing row is untouched |
| SettingsTable.SettingsStore.Get | bot.py:100-115 | an existing row is read without change; a new user gets the defaults and their row is created |
| SettingsTable.SettingsStore.Update | bot.py:117-129 | the user's (ensured) row becomes the assignments applied in order with the given value encoding; no assignments leave it as ensured |
| SettingsTable.SettingsStore.SaveThresholdsAsWritten | bot.py:860-866 | the new table is the old one with only this user's row replaced by the four threshold assignments applied as bot.py:124 encodes them (to the default row for a new user); all four stored thresholds then read 1 and both toggles keep their values |
| SettingsTable.SettingsStore.SaveThresholds | bot.py:860-866 | the new table is the old one with only this user's row replaced by the four threshold assignments under the corrected encoding (to the default row for a new user); the thresholds then read as given and both toggles keep their values (on for a new user) |
| Scenarios.DiskSampleUsage | bot.py:456-471 | `{"disk_used": 40, "disk": 50}` gives disk usage (40, 50) and no bandwidth usage |
| Scenarios.DiskSampleLabels | bot.py:911-914 | that reply names the VM `VPS <id>`, with address `-`, not suspended |
| Scenarios.DiskSampleObservation | bot.py:910-920 | that reply, polled as VM `7`, observes 80% disk, no bandwidth figure, flag 0, name `VPS 7` and address `-` |
| Scenarios.DiskAtEightyPercentWarns | bot.py:919-931 | that reply is at 80%, `warn` under the defaults, and the first poll sends exactly one disk notice |
| Scenarios.WarnThenCritical | bot.py:927-951 | stored `warn` then `warn` is silent; stored `warn` then `critical` sends one disk notice and stores `critical` |
| Scenarios.SuspendedAtFirstPoll | bot.py:939-951 | a VM suspended at its first poll sends no suspend notice and stores flag 1 |
| Scenarios.VmIsRecord | bot.py:320-335 | a record with `hostname` and `vpsid` is unchanged by normalisation, passes the filter, and has that id |
| Scenarios.ListingKeyedById | bot.py:389-413 | a listing with VMs `101` and `102` keyed by id under `vs` yields both records, in order |

## Left out

- HTTP I/O of `v_api_request`: sessions, the timeout, TLS and JSON decoding. Replies are inputs; a raised request is a missing reply.
- aiogram handlers, keyboards, message texts and the form flows, apart from the values the toggles and the threshold form pass to `update_alert_settings`.
- SQLite I/O: the tables are maps, and the statements are map updates. `api_profiles`, `add_profile`, `list_profiles` and `get_profile` are not modelled. The sweep's user and profile order is an input.
- The `get_profile` re-read at bot.py:888-890, which skips a profile deleted between listing and polling. That is a race with the UI.
- The infinite loop, `asyncio.sleep`, and concurrency with the UI.
- `bot.send_message` delivery and its failure. A failed send (or any other exception outside the two guarded requests) ends the whole sweep at bot.py:953-954; the model assumes each send succeeds.
- Alerts.Notice: keeps the level, percentage, name and address of a notice, not the message text.
- Usage.ComputePercent: exact rational arithmetic; the float division and its rounding are not modelled.
- Usage.ToNumber: converts ints, bools and strings of an optionally signed integer. Strings with a decimal point, exponent, underscores, `inf`/`nan` or non-ASCII digits give no number here, where Python gives one. `Json` has no float constructor, so a reply holding a JSON float cannot be represented at all. The `OverflowError` of `int(float("inf"))` is not modelled.
- Text.IsDigits: ASCII digits only; `str.isdigit` also accepts other Unicode digits.
- Json.Repr: strings are always quoted with `'` and nothing is escaped, unlike Python's `repr`. The VM id of a list- or dict-valued `vpsid` is this text, so ids can collide where Python's differ: `JList([JStr("a', 'b")])` and `JList([JStr("a"), JStr("b")])` get the same id, and the dedup and the alert table then treat them as one VM.
- Normalize.Walk, Normalize.ScanBounded: the model's scan always runs to completion. The source's `walk` is recursive, so a reply nested deeper than Python's recursion limit (1000 frames by default) raises `RecursionError` before the 5000-visit counter stops it. That exception is inside the guarded block of bot.py:893-897, so the source skips the whole profile, even a VM listed near the top, such as VM `7` in `{"a": [{"vpsid": "7"}], "b": [[[...]]]}` with `b` nested 1200 deep. The model finds and polls them. A listing is either `None` (request failed) or a decoded reply; "decoded, but the scan raised" is not expressed.
- Normalize.NormalizeItem: a pure function. Every caller passes a fresh `dict(it)` copy, so its in-place update is not observable.
- The `(url or "")` and `(text or "")` guards: the inputs are modelled as strings, never `None`.
- `ensure_alert_settings` inside `update_alert_settings` is modelled, but the sweep takes each user's settings as an input. It does not call `SettingsStore.Get`.
- `parse_percent` removes `%` and ARABIC PERCENT SIGN (U+066A); the model uses that character.
- Json.Get: a `JObj` may hold a key twice and `Get` then reads the first entry, while Python's JSON decoder keeps the last one. Such values have no Python counterpart; the decoder is not part of this model.
- Usage.ToNumber: a usage value of `"inf"` or `"nan"` (or a JSON `NaN`/`Infinity` literal, which `Json` cannot hold) makes `math.floor` at bot.py:436 raise, which ends the whole sweep at bot.py:953-954. The model gives such a value no number, so that VM simply has no usage.

## Findings

| source | as written | input that shows it | evidently intended | confidence | as-written member | corrected member |
|---|---|---|---|---|---|---|
| bot.py:124 | the conditional expression groups as `1 if v else (0 if isinstance(v, bool) else v)`, so every truthy value, including any threshold 1 to 100, is stored as 1 | saving the threshold form with 80/100/80/100 stores 1/1/1/1; afterwards a disk at 5% is reported `critical` | booleans stored as 0/1 and integers stored as given | not executed; follows from Python's precedence rules | SettingsTable.ThresholdsCollapseAsWritten | SettingsTable.ThresholdsRoundTrip |

=== FILE: alerts.dfy ===
/** The alert engine: the `alert_state` table (bot.py:80-89, 168-200), the
    per-VM decision of `alert_loop` (bot.py:900-951) and one full sweep over
    users, their profiles and their VMs (bot.py:881-951). */
module Alerts {
  import opened Wrappers
  import opened Json
  import opened Normalize
  import opened Usage
  import opened Panel

  // ---------------------------------------------------------------------
  // Settings and the alert-state table
  // ---------------------------------------------------------------------

  /** One user's alert settings, as `get_alert_settings` returns them. */
  datatype Settings = Settings(
    alertsEnabled: bool,
    diskWarn: int, diskCritical: int,
    bwWarn: int, bwCritical: int,
    suspendAlerts: bool)

  /** The column defaults of `alert_settings`, which a user without a row
      gets (`ensure_alert_settings` inserts them on first read). */
  const DefaultSettings: Settings := Settings(true, 80, 100, 80, 100, true)

  /** Primary key of `alert_state`: (user_id, profile_id, vps_id). */
  datatype StateKey = StateKey(user: int, profile: int, vps: string)

  /** The stored columns: last disk level, last bandwidth level, last
      suspend flag; each may be NULL. */
  datatype AlertRow = AlertRow(diskLevel: Option<Level>, bwLevel: Option<Level>, suspend: Option<int>)

  /** What `get_alert_state` answers for a key without a row. */
  const NoRow: AlertRow := AlertRow(None, None, None)

  /** `get_alert_state` on the table's contents. */
  function RowOf(rows: map<StateKey, AlertRow>, k: StateKey): (r: AlertRow)
    ensures k in rows ==> r == rows[k]
    ensures k !in rows ==> r == NoRow
  {
    if k in rows then rows[k] else NoRow
  }

  /** The table after `DELETE FROM alert_state WHERE user_id=? AND profile_id=?`. */
  function WithoutProfile(rows: map<StateKey, AlertRow>, user: int, profile: int): (r: map<StateKey, AlertRow>)
    ensures forall k :: k in r <==> k in rows && !(k.user == user && k.profile == profile)
    ensures forall k :: k in r ==> r[k] == rows[k]
  {
    map k | k in rows && !(k.user == user && k.profile == profile) :: rows[k]
  }

  /** An upsert makes its key read back the new row and leaves every other
      key as it was. */
  lemma UpsertOnlyThatKey(rows: map<StateKey, AlertRow>, k: StateKey, row: AlertRow)
    ensures RowOf(rows[k := row], k) == row
    ensures forall k' :: k' != k ==> RowOf(rows[k := row], k') == RowOf(rows, k')
    ensures (rows[k := row]).Keys == rows.Keys + {k}
  {
  }

  /** After deleting a profile, every key of that (user, profile) reads as a
      missing row, and every other key reads as before. */
  lemma DeletedProfileReadsEmpty(rows: map<StateKey, AlertRow>, user: int, profile: int)
    ensures forall v :: RowOf(WithoutProfile(rows, user, profile), StateKey(user, profile, v)) == NoRow
    ensures forall k: StateKey :: !(k.user == user && k.profile == profile) ==>
              RowOf(WithoutProfile(rows, user, profile), k) == RowOf(rows, k)
  {
  }

  /** The `alert_state` table: exactly one row per key, last write wins. */
  class AlertStore {
    var rows: map<StateKey, AlertRow>

    constructor ()
      ensures rows == map[]
    {
      rows := map[];
    }

    /** `get_alert_state(user_id, profile_id, vps_id)` */
    function Get(user: int, profile: int, vps: string): (r: AlertRow)
      reads this
      ensures StateKey(user, profile, vps) in rows ==> r == rows[StateKey(user, profile, vps)]
      ensures StateKey(user, profile, vps) !in rows ==> r == NoRow
    {
      RowOf(rows, StateKey(user, profile, vps))
    }

    /** `set_alert_state(...)`: insert, or overwrite all three columns. */
    method Set(user: int, profile: int, vps: string, row: AlertRow)
      modifies this
      ensures rows == old(rows)[StateKey(user, profile, vps) := row]
    {
      rows := rows[StateKey(user, profile, vps) := row];
    }

    /** The `alert_state` half of `delete_profile(user_id, profile_id)`. */
    method DeleteProfile(user: int, profile: int)
      modifies this
      ensures rows == WithoutProfile(old(rows), user, profile)
    {
      rows := map k | k in rows && !(k.user == user && k.profile == profile) :: rows[k];
    }
  }

  // ---------------------------------------------------------------------
  // The per-VM decision
  // ---------------------------------------------------------------------

  datatype NoticeKind =
    | DiskAlert(level: Level, pct: int)
    | BwAlert(level: Level, pct: int)
    | SuspendAlert
    | UnsuspendAlert

  /** One message to a user: what happened, and the VM's name and address. */
  datatype Notice = Notice(user: int, kind: NoticeKind, name: string, ip: string)

  /** What one poll read from a VM's detail record. */
  datatype Observation = Observation(
    diskPct: Option<int>, bwPct: Option<int>, suspended: int, name: string, ip: string)

  /** `info.get(k1) or info.get(k2) or ... or fallback`, as the f-string
      prints it. */
  function FirstTruthyText(info: Json, keys: seq<string>, fallback: string): (r: string)
    requires keys != []
    ensures fallback != "" ==> r != ""
    ensures forall i :: 0 <= i < |keys| && Truthy(GetKey(info, keys[i]))
                        && (forall j :: 0 <= j < i ==> !Truthy(GetKey(info, keys[j]))) ==>
              r == PyStr(GetKey(info, keys[i]))
    ensures (forall j :: 0 <= j < |keys| ==> !Truthy(GetKey(info, keys[j]))) ==> r == fallback
  {
    var v := OrChain(info, keys);
    OrChainTruthyIff(info, keys);
    if Truthy(v) then StrOrEmpty(v); PyStr(v) else fallback
  }

  /** `to_int(info.get("suspended") or info.get("is_suspended") or 0, 0)` */
  function SuspendFlag(info: Json): int {
    var v := OrChain(info, ["suspended", "is_suspended"]);
    ToInt(if Truthy(v) then v else JInt(0), 0)
  }

  /** A panel that reports neither suspend field reads as not suspended. */
  lemma NoSuspendFieldIsZero(info: Json)
    requires GetKey(info, "suspended") == JNull && GetKey(info, "is_suspended") == JNull
    ensures SuspendFlag(info) == 0
  {
    var ks := ["suspended", "is_suspended"];
    assert ks[0] == "suspended" && ks[1] == "is_suspended";
    OrChainNoneTruthy(info, ks);
  }

  /** bot.py:910-920: the VM's name, address, suspend flag and usage percentages. */
  function Observe(info: Json, vpsId: string): (r: Observation)
    ensures r.name != "" && r.ip != ""
  {
    Observation(
      UsagePercent(ExtractUsage(info, Disk)),
      UsagePercent(ExtractUsage(info, Bandwidth)),
      SuspendFlag(info),
      FirstTruthyText(info, ["hostname", "name"], "VPS " + vpsId),
      FirstTruthyText(info, ["primary_ip", "ip", "ipaddress"], "-"))
  }

  /** `level in ("warn", "critical") and level != prev` */
  predicate NeedsAlert(level: Option<Level>, prev: Option<Level>) {
    level.Some? && level.value != Ok && level != prev
  }

  function DiskLevel(s: Settings, obs: Observation): Option<Level> {
    Classify(obs.diskPct, s.diskWarn, s.diskCritical)
  }

  function BwLevel(s: Settings, obs: Observation): Option<Level> {
    Classify(obs.bwPct, s.bwWarn, s.bwCritical)
  }

  predicate Suspends(s: Settings, obs: Observation, prev: AlertRow) {
    s.suspendAlerts && prev.suspend.Some? && obs.suspended == 1 && prev.suspend.value == 0
  }

  predicate Unsuspends(s: Settings, obs: Observation, prev: AlertRow) {
    s.suspendAlerts && prev.suspend.Some? && obs.suspended == 0 && prev.suspend.value == 1
  }

  /** The notices bot.py:927-944 sends for one VM, in order. */
  function VmNotices(s: Settings, user: int, obs: Observation, prev: AlertRow): seq<Notice> {
    var disk := DiskLevel(s, obs);
    var bw := BwLevel(s, obs);
    (if NeedsAlert(disk, prev.diskLevel) then [Notice(user, DiskAlert(disk.value, obs.diskPct.value), obs.name, obs.ip)] else [])
    + (if NeedsAlert(bw, prev.bwLevel) then [Notice(user, BwAlert(bw.value, obs.bwPct.value), obs.name, obs.ip)] else [])
    + (if Suspends(s, obs, prev) then [Notice(user, SuspendAlert, obs.name, obs.ip)] else [])
    + (if Unsuspends(s, obs, prev) then [Notice(user, UnsuspendAlert, obs.name, obs.ip)] else [])
  }

  /** The row bot.py:946-951 writes back, whether or not anything was sent. */
  function NewRow(s: Settings, obs: Observation): AlertRow {
    AlertRow(DiskLevel(s, obs), BwLevel(s, obs), Some(obs.suspended))
  }

  /** A disk notice is sent exactly when the new disk level is `warn` or
      `critical` and differs from the stored one; it carries that level and
      the percentage. The same holds for bandwidth. */
  lemma LevelNoticeIff(s: Settings, user: int, obs: Observation, prev: AlertRow)
    ensures var ns := VmNotices(s, user, obs, prev);
            && (NeedsAlert(DiskLevel(s, obs), prev.diskLevel) ==>
                  obs.diskPct.Some?
                  && ns[0] == Notice(user, DiskAlert(DiskLevel(s, obs).value, obs.diskPct.value), obs.name, obs.ip))
            && (!NeedsAlert(DiskLevel(s, obs), prev.diskLevel) ==> forall n :: n in ns ==> !n.kind.DiskAlert?)
            && (NeedsAlert(BwLevel(s, obs), prev.bwLevel) ==>
                  obs.bwPct.Some?
                  && Notice(user, BwAlert(BwLevel(s, obs).value, obs.bwPct.value), obs.name, obs.ip) in ns)
            && (!NeedsAlert(BwLevel(s, obs), prev.bwLevel) ==> forall n :: n in ns ==> !n.kind.BwAlert?)
            && (forall n :: n in ns ==> n.user == user)
            && |ns| <= 3
  {
  }

  /** A suspend notice is sent exactly when suspend alerts are on and the flag
      went from a stored 0 to 1; an unsuspend notice exactly when it went from
      a stored 1 to 0. */
  lemma SuspendNoticeIff(s: Settings, user: int, obs: Observation, prev: AlertRow)
    ensures var ns := VmNotices(s, user, obs, prev);
            && ((exists n :: n in ns && n.kind.SuspendAlert?) <==>
                  s.suspendAlerts && prev.suspend == Some(0) && obs.suspended == 1)
            && ((exists n :: n in ns && n.kind.UnsuspendAlert?) <==>
                  s.suspendAlerts && prev.suspend == Some(1) && obs.suspended == 0)
  {
    var ns := VmNotices(s, user, obs, prev);
    if Suspends(s, obs, prev) {
      assert Notice(user, SuspendAlert, obs.name, obs.ip) in ns;
    }
    if Unsuspends(s, obs, prev) {
      assert Notice(user, UnsuspendAlert, obs.name, obs.ip) in ns;
    }
  }

  /** The first poll of a VM (no stored row) never sends a suspend or
      unsuspend notice, and stores the observed flag as the baseline. */
  lemma FirstPollNoSuspendNotice(s: Settings, user: int, obs: Observation)
    ensures forall n :: n in VmNotices(s, user, obs, NoRow) ==> !n.kind.SuspendAlert? && !n.kind.UnsuspendAlert?
    ensures NewRow(s, obs).suspend == Some(obs.suspended)
  {
  }

  /** No repeats: polling again with the same observation, after its row was
      stored, sends nothing. */
  lemma NoRepeatNotices(s: Settings, user: int, obs: Observation)
    ensures VmNotices(s, user, obs, NewRow(s, obs)) == []
  {
  }

  /** Moving to `ok`, or to no level at all, never notifies about that resource. */
  lemma CalmingDownIsSilent(s: Settings, user: int, obs: Observation, prev: AlertRow)
    requires DiskLevel(s, obs) == Some(Ok) || DiskLevel(s, obs) == None
    ensures forall n :: n in VmNotices(s, user, obs, prev) ==> !n.kind.DiskAlert?
  {
  }

  // ---------------------------------------------------------------------
  // One sweep
  // ---------------------------------------------------------------------

  /** What the panel answered for one profile during a sweep: the VM list
      (`None` when the request failed) and, per position of that list, the
      reply to its detail request (`None` when it failed). A VM listed twice
      is asked twice, so its two replies may differ. */
  datatype ProfilePoll = ProfilePoll(profileId: int, listing: Option<Json>, details: seq<Option<Json>>)

  /** One user with settings, and their profiles in `list_profiles` order. */
  datatype UserPoll = UserPoll(userId: int, settings: Settings, profiles: seq<ProfilePoll>)

  /** The table and the notices sent so far. */
  datatype Tally = Tally(rows: map<StateKey, AlertRow>, log: seq<Notice>)

  /** The detail reply for position `j` of the VM list; positions past the
      recorded replies count as failed requests. */
  function ReplyAt(pp: ProfilePoll, j: nat): Option<Json> {
    if j < |pp.details| then pp.details[j] else None
  }

  /** `info` of bot.py:905-910 for a detail request that succeeded. */
  function DetailInfo(reply: Json): Json {
    PickVpsDetails(WrapResponse(reply))
  }

  /** The body of `for v in vps_list` (bot.py:900-951), given the reply to
      this VM's detail request. */
  function PolledVm(s: Settings, user: int, profile: int, vm: Json, reply: Option<Json>, t: Tally): Tally {
    var id := IdOf(vm);
    if id == "" || reply.None? then t
    else
      var obs := Observe(DetailInfo(reply.value), id);
      var k := StateKey(user, profile, id);
      Tally(t.rows[k := NewRow(s, obs)], t.log + VmNotices(s, user, obs, RowOf(t.rows, k)))
  }

  function PolledVms(s: Settings, user: int, pp: ProfilePoll, vms: seq<Json>, t: Tally): Tally {
    if vms == [] then t
    else PolledVm(s, user, pp.profileId, vms[|vms| - 1], ReplyAt(pp, |vms| - 1), PolledVms(s, user, pp, vms[..|vms| - 1], t))
  }

  /** The body of `for pr in profiles` (bot.py:887-951). */
  function PolledProfile(s: Settings, user: int, pp: ProfilePoll, t: Tally): Tally {
    match pp.listing
    case None => t
    case Some(resp) => PolledVms(s, user, pp, VpsList(WrapResponse(resp)), t)
  }

  function PolledProfiles(up: UserPoll, ps: seq<ProfilePoll>, t: Tally): Tally {
    if ps == [] then t
    else PolledProfile(up.settings, up.userId, ps[|ps| - 1], PolledProfiles(up, ps[..|ps| - 1], t))
  }

  /** The body of `for user_id in users` (bot.py:881-951). */
  function PolledUser(up: UserPoll, t: Tally): Tally {
    if !up.settings.alertsEnabled then t else PolledProfiles(up, up.profiles, t)
  }

  /** One full sweep. */
  function Swept(plan: seq<UserPoll>, t: Tally): Tally {
    if plan == [] then t else PolledUser(plan[|plan| - 1], Swept(plan[..|plan| - 1], t))
  }

  /** Key `k` reads the same, present or absent, in both tallies, and the log
      of the second extends the log of the first. */
  ghost predicate Keeps(t: Tally, t': Tally, k: StateKey) {
    (k in t'.rows <==> k in t.rows) && RowOf(t'.rows, k) == RowOf(t.rows, k)
  }

  ghost predicate LogGrows(t: Tally, t': Tally) {
    |t.log| <= |t'.log| && t'.log[..|t.log|] == t.log
  }

  /** Some entry of `vms` with id `id` got a detail reply. */
  predicate Answered(pp: ProfilePoll, vms: seq<Json>, id: string) {
    exists j :: 0 <= j < |vms| && IdOf(vms[j]) == id && ReplyAt(pp, j).Some?
  }

  /** The rows a profile poll may write: its own profile, and only VMs with a
      listed entry whose detail request succeeded. */
  predicate MayWriteProfile(user: int, pp: ProfilePoll, k: StateKey) {
    && pp.listing.Some? && k.user == user && k.profile == pp.profileId
    && Answered(pp, VpsList(WrapResponse(pp.listing.value)), k.vps)
  }

  /** Some profile of `ps` may write `k`. */
  predicate AnyProfileWrites(user: int, ps: seq<ProfilePoll>, k: StateKey) {
    exists j :: 0 <= j < |ps| && MayWriteProfile(user, ps[j], k)
  }

  predicate MayWriteUser(up: UserPoll, k: StateKey) {
    up.settings.alertsEnabled && AnyProfileWrites(up.userId, up.profiles, k)
  }

  predicate MayWrite(plan: seq<UserPoll>, k: StateKey) {
    exists i :: 0 <= i < |plan| && MayWriteUser(plan[i], k)
  }

  /** One VM step only appends to the log, and writes at most the row of
      that VM, and only when it has an id and a reply. */
  lemma PolledVmFrame(s: Settings, user: int, profile: int, vm: Json, reply: Option<Json>, t: Tally)
    ensures LogGrows(t, PolledVm(s, user, profile, vm, reply, t))
    ensures forall k: StateKey :: !(k == StateKey(user, profile, IdOf(vm)) && reply.Some?) ==>
              Keeps(t, PolledVm(s, user, profile, vm, reply, t), k)
  {
    var r := PolledVm(s, user, profile, vm, reply, t);
    assert r.log[..|t.log|] == t.log;
  }

  lemma {:induction false} PolledVmsFrame(s: Settings, user: int, pp: ProfilePoll, vms: seq<Json>, t: Tally)
    ensures LogGrows(t, PolledVms(s, user, pp, vms, t))
    ensures forall k: StateKey :: !(k.user == user && k.profile == pp.profileId && Answered(pp, vms, k.vps)) ==>
              Keeps(t, PolledVms(s, user, pp, vms, t), k)
  {
    if vms != [] {
      var init := vms[..|vms| - 1];
      var mid := PolledVms(s, user, pp, init, t);
      PolledVmsFrame(s, user, pp, init, t);
      var r := PolledVm(s, user, pp.profileId, vms[|vms| - 1], ReplyAt(pp, |vms| - 1), mid);
      PolledVmFrame(s, user, pp.profileId, vms[|vms| - 1], ReplyAt(pp, |vms| - 1), mid);
      assert r.log[..|t.log|] == mid.log[..|t.log|];
      forall k: StateKey | !(k.user == user && k.profile == pp.profileId && Answered(pp, vms, k.vps))
        ensures Keeps(t, r, k)
      {
        if k.user == user && k.profile == pp.profileId {
          forall j | 0 <= j < |init| && IdOf(init[j]) == k.vps
            ensures ReplyAt(pp, j).None?
          {
            assert init[j] == vms[j];
          }
          if IdOf(vms[|vms| - 1]) == k.vps {
            assert ReplyAt(pp, |vms| - 1).None?;
          }
        }
      }
    }
  }

  lemma ProfileFrame(s: Settings, user: int, pp: ProfilePoll, t: Tally)
    ensures LogGrows(t, PolledProfile(s, user, pp, t))
    ensures forall k :: !MayWriteProfile(user, pp, k) ==> Keeps(t, PolledProfile(s, user, pp, t), k)
  {
    if pp.listing.Some? {
      PolledVmsFrame(s, user, pp, VpsList(WrapResponse(pp.listing.value)), t);
    }
  }

  lemma {:induction false} ProfilesFrame(up: UserPoll, ps: seq<ProfilePoll>, t: Tally)
    ensures LogGrows(t, PolledProfiles(up, ps, t))
    ensures forall k :: !AnyProfileWrites(up.userId, ps, k) ==> Keeps(t, PolledProfiles(up, ps, t), k)
  {
    if ps != [] {
      var init := ps[..|ps| - 1];
      var last := ps[|ps| - 1];
      var mid := PolledProfiles(up, init, t);
      ProfilesFrame(up, init, t);
      ProfileFrame(up.settings, up.userId, last, mid);
      var r := PolledProfiles(up, ps, t);
      assert r == PolledProfile(up.settings, up.userId, last, mid);
      assert r.log[..|t.log|] == r.log[..|mid.log|][..|t.log|];
      forall k | !AnyProfileWrites(up.userId, ps, k)
        ensures Keeps(t, r, k)
      {
        forall j | 0 <= j < |init|
          ensures !MayWriteProfile(up.userId, init[j], k)
        {
          assert init[j] == ps[j];
        }
        assert !MayWriteProfile(up.userId, ps[|ps| - 1], k);
        assert Keeps(t, mid, k);
        assert Keeps(mid, r, k);
      }
    }
  }

  lemma {:induction false} SweptFrame(plan: seq<UserPoll>, t: Tally)
    ensures LogGrows(t, Swept(plan, t))
    ensures forall k :: !MayWrite(plan, k) ==> Keeps(t, Swept(plan, t), k)
  {
    if plan != [] {
      var init := plan[..|plan| - 1];
      var up := plan[|plan| - 1];
      var mid := Swept(init, t);
      SweptFrame(init, t);
      var r := Swept(plan, t);
      if up.settings.alertsEnabled {
        ProfilesFrame(up, up.profiles, mid);
      }
      assert r.log[..|t.log|] == r.log[..|mid.log|][..|t.log|];
      forall k | !MayWrite(plan, k)
        ensures Keeps(t, r, k)
      {
        assert forall i :: 0 <= i < |init| ==> init[i] == plan[i];
        assert !MayWriteUser(up, k);
        assert !MayWrite(init, k);
      }
    }
  }

  /** The sweep only appends to the notification log, and changes no row it
      has no business with: users with alerts off, profiles whose list
      request failed, and VMs whose detail request failed keep their rows
      exactly (present or absent). */
  lemma SweepWritesOnlyPolledRows(plan: seq<UserPoll>, t: Tally, k: StateKey)
    requires !MayWrite(plan, k)
    ensures LogGrows(t, Swept(plan, t))
    ensures k in Swept(plan, t).rows <==> k in t.rows
    ensures RowOf(Swept(plan, t).rows, k) == RowOf(t.rows, k)
  {
    SweptFrame(plan, t);
  }

  /** A user with alerts off is skipped entirely. */
  lemma DisabledUserSkipped(up: UserPoll, t: Tally)
    requires !up.settings.alertsEnabled
    ensures PolledUser(up, t) == t
  {
  }

  /** A failed list request skips the whole profile. */
  lemma FailedListingSkipsProfile(s: Settings, user: int, pp: ProfilePoll, t: Tally)
    requires pp.listing.None?
    ensures PolledProfile(s, user, pp, t) == t
  {
  }

  /** A listed VM whose detail request succeeded, and whose id no later
      answered entry repeats, ends the profile poll with its row upserted
      from its own detail reply, whatever was stored before and whether or
      not anything was sent. For a VM listed twice the last answered entry
      decides the row. */
  lemma {:induction false} PolledVmsWrites(s: Settings, user: int, pp: ProfilePoll, vms: seq<Json>, t: Tally, i: nat)
    requires i < |vms| && IdOf(vms[i]) != "" && ReplyAt(pp, i).Some?
    requires forall j :: i < j < |vms| && IdOf(vms[j]) == IdOf(vms[i]) ==> ReplyAt(pp, j).None?
    ensures var id := IdOf(vms[i]);
            && StateKey(user, pp.profileId, id) in PolledVms(s, user, pp, vms, t).rows
            && PolledVms(s, user, pp, vms, t).rows[StateKey(user, pp.profileId, id)]
              == NewRow(s, Observe(DetailInfo(ReplyAt(pp, i).value), id))
  {
    var id := IdOf(vms[i]);
    var init := vms[..|vms| - 1];
    var last := vms[|vms| - 1];
    if i < |vms| - 1 {
      assert init[i] == vms[i];
      forall j | i < j < |init| && IdOf(init[j]) == id
        ensures ReplyAt(pp, j).None?
      {
        assert init[j] == vms[j];
      }
      PolledVmsWrites(s, user, pp, init, t, i);
      if IdOf(last) == id {
        assert ReplyAt(pp, |vms| - 1).None?;
      }
    }
  }

  /** Scenario of a failing detail fetch next to a working one: the VM whose
      detail request failed keeps its row, the other gets its new row, and
      the rest of the profile is still processed. */
  lemma FailedDetailSkipsOnlyThatVm(s: Settings, user: int, pp: ProfilePoll, vms: seq<Json>, t: Tally,
                                    failed: string, i: nat)
    requires forall j :: 0 <= j < |vms| && IdOf(vms[j]) == failed ==> ReplyAt(pp, j).None?
    requires i < |vms| && IdOf(vms[i]) != "" && ReplyAt(pp, i).Some?
    requires forall j :: i < j < |vms| && IdOf(vms[j]) == IdOf(vms[i]) ==> ReplyAt(pp, j).None?
    ensures var r := PolledVms(s, user, pp, vms, t);
            && Keeps(t, r, StateKey(user, pp.profileId, failed))
            && StateKey(user, pp.profileId, IdOf(vms[i])) in r.rows
            && r.rows[StateKey(user, pp.profileId, IdOf(vms[i]))]
                 == NewRow(s, Observe(DetailInfo(ReplyAt(pp, i).value), IdOf(vms[i])))
  {
    PolledVmsFrame(s, user, pp, vms, t);
    PolledVmsWrites(s, user, pp, vms, t, i);
  }

  // ---------------------------------------------------------------------
  // The sweep, imperatively: the table, the notification sink, the loops
  // ---------------------------------------------------------------------

  /** The notification sink: an append-only log of what was sent. */
  class Outbox {
    var sent: seq<Notice>

    constructor ()
      ensures sent == []
    {
      sent := [];
    }

    /** `bot.send_message(user_id, text)` */
    method Send(n: Notice)
      modifies this
      ensures sent == old(sent) + [n]
    {
      sent := sent + [n];
    }
  }

  /** The messages of bot.py:927-944 for one VM, in order. */
  method SendNotices(outbox: Outbox, s: Settings, user: int, obs: Observation,
                     diskLevel: Option<Level>, bwLevel: Option<Level>, prev: AlertRow)
    requires diskLevel == DiskLevel(s, obs) && bwLevel == BwLevel(s, obs)
    modifies outbox
    ensures outbox.sent == old(outbox.sent) + VmNotices(s, user, obs, prev)
  {
    ghost var before := outbox.sent;
    if NeedsAlert(diskLevel, prev.diskLevel) {
      outbox.Send(Notice(user, DiskAlert(diskLevel.value, obs.diskPct.value), obs.name, obs.ip));
    }
    ghost var afterDisk := outbox.sent;
    if NeedsAlert(bwLevel, prev.bwLevel) {
      outbox.Send(Notice(user, BwAlert(bwLevel.value, obs.bwPct.value), obs.name, obs.ip));
    }
    ghost var afterBw := outbox.sent;
    if s.suspendAlerts {
      if prev.suspend.Some? {
        if obs.suspended == 1 && prev.suspend.value == 0 {
          outbox.Send(Notice(user, SuspendAlert, obs.name, obs.ip));
        }
        if obs.suspended == 0 && prev.suspend.value == 1 {
          outbox.Send(Notice(user, UnsuspendAlert, obs.name, obs.ip));
        }
      }
    }
    assert outbox.sent == afterBw
      + (if Suspends(s, obs, prev) then [Notice(user, SuspendAlert, obs.name, obs.ip)] else [])
      + (if Unsuspends(s, obs, prev) then [Notice(user, UnsuspendAlert, obs.name, obs.ip)] else []);
  }

  /** One VM of one profile (bot.py:900-951), given the reply to its
      detail request. */
  method PollVm(store: AlertStore, outbox: Outbox, s: Settings, user: int, profile: int, vm: Json, reply: Option<Json>)
    modifies store, outbox
    ensures Tally(store.rows, outbox.sent) == PolledVm(s, user, profile, vm, reply, Tally(old(store.rows), old(outbox.sent)))
  {
    var vpsId := IdOf(vm);
    if vpsId == "" {
      return;
    }
    if reply.None? {
      // the detail request raised: skip this VM, no state write
      return;
    }
    var info := PickVpsDetails(WrapResponse(reply.value));
    var obs := Observe(info, vpsId);
    var diskLevel := Classify(obs.diskPct, s.diskWarn, s.diskCritical);
    var bwLevel := Classify(obs.bwPct, s.bwWarn, s.bwCritical);
    var prev := store.Get(user, profile, vpsId);
    SendNotices(outbox, s, user, obs, diskLevel, bwLevel, prev);
    store.Set(user, profile, vpsId, AlertRow(diskLevel, bwLevel, Some(obs.suspended)));
  }

  /** `for v in vps_list` (bot.py:899-951) over one profile's VM list. */
  method PollVms(store: AlertStore, outbox: Outbox, s: Settings, user: int, pp: ProfilePoll, vms: seq<Json>)
    modifies store, outbox
    ensures Tally(store.rows, outbox.sent) == PolledVms(s, user, pp, vms, Tally(old(store.rows), old(outbox.sent)))
  {
    ghost var t0 := Tally(store.rows, outbox.sent);
    var k := 0;
    while k < |vms|
      invariant 0 <= k <= |vms|
      invariant Tally(store.rows, outbox.sent) == PolledVms(s, user, pp, vms[..k], t0)
    {
      assert vms[..k + 1][..k] == vms[..k];
      PollVm(store, outbox, s, user, pp.profileId, vms[k], ReplyAt(pp, k));
      k := k + 1;
    }
    assert vms[..k] == vms;
  }

  /** One profile (bot.py:887-951). */
  method PollProfile(store: AlertStore, outbox: Outbox, s: Settings, user: int, pp: ProfilePoll)
    modifies store, outbox
    ensures Tally(store.rows, outbox.sent) == PolledProfile(s, user, pp, Tally(old(store.rows), old(outbox.sent)))
  {
    if pp.listing.None? {
      // the list request raised: skip the whole profile
      return;
    }
    var vpsList := PickVpsList(WrapResponse(pp.listing.value));
    PollVms(store, outbox, s, user, pp, vpsList);
  }

  /** One user (bot.py:881-951). */
  method PollUser(store: AlertStore, outbox: Outbox, up: UserPoll)
    modifies store, outbox
    ensures Tally(store.rows, outbox.sent) == PolledUser(up, Tally(old(store.rows), old(outbox.sent)))
  {
    if !up.settings.alertsEnabled {
      return;
    }
    ghost var t0 := Tally(store.rows, outbox.sent);
    var j := 0;
    while j < |up.profiles|
      invariant 0 <= j <= |up.profiles|
      invariant Tally(store.rows, outbox.sent) == PolledProfiles(up, up.profiles[..j], t0)
    {
      assert up.profiles[..j + 1][..j] == up.profiles[..j];
      PollProfile(store, outbox, up.settings, up.userId, up.profiles[j]);
      j := j + 1;
    }
    assert up.profiles[..j] == up.profiles;
  }

  /** One sweep of `alert_loop` over every user, in the given order. */
  method Sweep(store: AlertStore, outbox: Outbox, plan: seq<UserPoll>)
    modifies store, outbox
    ensures Tally(store.rows, outbox.sent) == Swept(plan, Tally(old(store.rows), old(outbox.sent)))
  {
    ghost var t0 := Tally(store.rows, outbox.sent);
    var i := 0;
    while i < |plan|
      invariant 0 <= i <= |plan|
      invariant Tally(store.rows, outbox.sent) == Swept(plan[..i], t0)
    {
      assert plan[..i + 1][..i] == plan[..i];
      PollUser(store, outbox, plan[i]);
      i := i + 1;
    }
    assert plan[..i] == plan;
  }
}

=== FILE: json.dfy ===
/** Option, as used throughout for Python's `None`. */
module Wrappers {
  datatype Option<+T> = None | Some(value: T)
}

/** The decoded JSON value a panel returns, as Python sees it after
    `resp.json()`: `None`, `bool`, `int`, `str`, `list`, or a `dict` whose keys
    keep insertion order. */
module Json {
  import opened Wrappers
  import opened Text

  datatype Json =
    | JNull
    | JBool(b: bool)
    | JInt(n: int)
    | JStr(s: string)
    | JList(items: seq<Json>)
    | JObj(fields: seq<Field>)

  /** One key/value entry of a dict, in insertion order. */
  datatype Field = Field(key: string, value: Json)

  /** Python truthiness: `None`, `False`, `0`, `""`, `[]` and `{}` are falsy. */
  predicate Truthy(j: Json) {
    match j
    case JNull => false
    case JBool(b) => b
    case JInt(n) => n != 0
    case JStr(s) => s != ""
    case JList(xs) => xs != []
    case JObj(fs) => fs != []
  }

  /** A Python dict never holds a key twice. */
  ghost predicate UniqueKeys(fs: seq<Field>) {
    forall i, j :: 0 <= i < j < |fs| ==> fs[i].key != fs[j].key
  }

  /** `k in d` */
  predicate HasKey(fs: seq<Field>, k: string) {
    exists i :: 0 <= i < |fs| && fs[i].key == k
  }

  /** Position of the entry for `k` (the first one, should a key repeat). */
  function IndexOf(fs: seq<Field>, k: string): (i: nat)
    requires HasKey(fs, k)
    ensures i < |fs| && fs[i].key == k
    ensures forall j :: 0 <= j < i ==> fs[j].key != k
  {
    if fs[0].key == k then 0
    else
      assert HasKey(fs[1..], k) by {
        var j :| 0 <= j < |fs| && fs[j].key == k;
        assert fs[1..][j - 1].key == k;
      }
      1 + IndexOf(fs[1..], k)
  }

  /** `d.get(k)`: the value stored under `k`, or `None` when it is missing. */
  function Get(fs: seq<Field>, k: string): (v: Json)
    ensures HasKey(fs, k) ==> v == fs[IndexOf(fs, k)].value
    ensures !HasKey(fs, k) ==> v == JNull
  {
    if HasKey(fs, k) then fs[IndexOf(fs, k)].value else JNull
  }

  /** `x.get(k)` on any decoded value; a non-dict has nothing to get. */
  function GetKey(j: Json, k: string): Json {
    if j.JObj? then Get(j.fields, k) else JNull
  }

  /** `d[k] = v`: overwrite in place when present, otherwise append. */
  function Put(fs: seq<Field>, k: string, v: Json): (r: seq<Field>)
    ensures HasKey(fs, k) ==> |r| == |fs| && r == fs[IndexOf(fs, k) := Field(k, v)]
    ensures !HasKey(fs, k) ==> r == fs + [Field(k, v)]
  {
    if HasKey(fs, k) then fs[IndexOf(fs, k) := Field(k, v)] else fs + [Field(k, v)]
  }

  /** Reading back a key just written gives the new value; every other key
      reads as before; a dict stays a dict (no key twice). */
  lemma PutGet(fs: seq<Field>, k: string, v: Json)
    ensures HasKey(Put(fs, k, v), k) && Get(Put(fs, k, v), k) == v
    ensures forall k' :: k' != k ==> Get(Put(fs, k, v), k') == Get(fs, k')
    ensures forall k' :: HasKey(Put(fs, k, v), k') <==> HasKey(fs, k') || k' == k
    ensures UniqueKeys(fs) ==> UniqueKeys(Put(fs, k, v))
  {
    var r := Put(fs, k, v);
    if HasKey(fs, k) {
      var i := IndexOf(fs, k);
      assert r[i].key == k;
      assert IndexOf(r, k) == i;
      forall k' | k' != k
        ensures Get(r, k') == Get(fs, k')
      {
        if HasKey(fs, k') {
          var j := IndexOf(fs, k');
          assert r[j] == fs[j];
          assert IndexOf(r, k') == j;
        } else {
          assert !HasKey(r, k');
        }
      }
    } else {
      assert r[|fs|].key == k;
      assert IndexOf(r, k) == |fs|;
      forall k' | k' != k
        ensures Get(r, k') == Get(fs, k')
      {
        if HasKey(fs, k') {
          var j := IndexOf(fs, k');
          assert r[j] == fs[j];
          assert IndexOf(r, k') == j;
        } else {
          assert !HasKey(r, k');
        }
      }
    }
    assert forall j :: 0 <= j < |fs| ==> r[j].key == fs[j].key;
    forall k' | HasKey(r, k') && k' != k
      ensures HasKey(fs, k')
    {
      var j :| 0 <= j < |r| && r[j].key == k';
      assert fs[j].key == k';
    }
    forall k' | HasKey(fs, k')
      ensures HasKey(r, k')
    {
      var j :| 0 <= j < |fs| && fs[j].key == k';
      assert r[j].key == k';
    }
  }

  /** `list(d.values())` */
  function Values(fs: seq<Field>): (vs: seq<Json>)
    ensures |vs| == |fs|
    ensures forall i :: 0 <= i < |fs| ==> vs[i] == fs[i].value
  {
    if fs == [] then [] else Values(fs[..|fs| - 1]) + [fs[|fs| - 1].value]
  }

  /** `str(x)` for a decoded JSON value. */
  function PyStr(j: Json): string {
    match j
    case JStr(s) => s
    case _ => Repr(j)
  }

  /** `repr(x)`; the quotes around strings are always `'` here and no character
      is escaped. */
  function Repr(j: Json): string {
    match j
    case JNull => "None"
    case JBool(b) => if b then "True" else "False"
    case JInt(n) => IntToString(n)
    case JStr(s) => "'" + s + "'"
    case JList(xs) => "[" + ReprItems(xs) + "]"
    case JObj(fs) => "{" + ReprFields(fs) + "}"
  }

  function ReprItems(xs: seq<Json>): string {
    if xs == [] then ""
    else if |xs| == 1 then Repr(xs[0])
    else ReprItems(xs[..|xs| - 1]) + ", " + Repr(xs[|xs| - 1])
  }

  function ReprFields(fs: seq<Field>): string {
    if fs == [] then ""
    else
      var last := "'" + fs[|fs| - 1].key + "': " + Repr(fs[|fs| - 1].value);
      if |fs| == 1 then last else ReprFields(fs[..|fs| - 1]) + ", " + last
  }

  /** `str(x or "")` is empty exactly when `x` is falsy: every truthy value
      prints as a non-empty string. */
  lemma {:induction false} StrOrEmpty(j: Json)
    ensures PyStr(if Truthy(j) then j else JStr("")) == "" <==> !Truthy(j)
  {
    match j
    case JNull =>
    case JBool(b) =>
    case JInt(n) =>
    case JStr(s) =>
    case JList(xs) => assert Repr(j)[0] == '[';
    case JObj(fs) => assert Repr(j)[0] == '{';
  }
}

=== FILE: normalize.dfy ===
/** Panel-response normalisation (bot.py:320-425): finding the list of VM
    records, or one VM's detail record, inside a loosely shaped panel reply. */
module Normalize {
  import opened Wrappers
  import opened Json

  // ---------------------------------------------------------------------
  // One record: `_normalize_vps_item` and `_looks_like_vps`
  // ---------------------------------------------------------------------

  /** `_normalize_vps_item(dict(it))`: a copy of the record whose canonical
      `vpsid` is taken from `vps_id`, failing that from `id`; an existing
      `vpsid` is never overwritten. */
  function NormalizeItem(fs: seq<Field>): (r: seq<Field>)
    ensures HasKey(fs, "vpsid") ==> r == fs
    ensures !HasKey(fs, "vpsid") && HasKey(fs, "vps_id") ==>
              r == fs + [Field("vpsid", Get(fs, "vps_id"))]
    ensures !HasKey(fs, "vpsid") && !HasKey(fs, "vps_id") && HasKey(fs, "id") ==>
              r == fs + [Field("vpsid", Get(fs, "id"))]
    ensures !HasKey(fs, "vpsid") && !HasKey(fs, "vps_id") && !HasKey(fs, "id") ==> r == fs
  {
    var a := if HasKey(fs, "vps_id") && !HasKey(fs, "vpsid") then Put(fs, "vpsid", Get(fs, "vps_id")) else fs;
    assert a != fs ==> a[|fs|].key == "vpsid";
    if HasKey(a, "id") && !HasKey(a, "vpsid") then Put(a, "vpsid", Get(a, "id")) else a
  }

  /** `_looks_like_vps`: a record with a `vpsid`, or one that names a host or
      an address and is not a user record (no `uid`). */
  predicate LooksLikeVps(fs: seq<Field>) {
    || HasKey(fs, "vpsid")
    || ((HasKey(fs, "hostname") || HasKey(fs, "name") || HasKey(fs, "primary_ip") || HasKey(fs, "ip"))
        && !HasKey(fs, "uid"))
  }

  /** A value that passed the filter: a dict that looks like a VM. */
  predicate IsVmRecord(j: Json) {
    j.JObj? && LooksLikeVps(j.fields)
  }

  lemma HasKeyAppend(fs: seq<Field>, f: Field, k: string)
    ensures HasKey(fs + [f], k) <==> HasKey(fs, k) || f.key == k
  {
    var r := fs + [f];
    if HasKey(r, k) && f.key != k {
      var j :| 0 <= j < |r| && r[j].key == k;
      assert fs[j].key == k;
    }
    if HasKey(fs, k) {
      var j :| 0 <= j < |fs| && fs[j].key == k;
      assert r[j].key == k;
    }
    assert r[|fs|] == f;
  }

  /** A record survives normalisation and filtering exactly when it carries an
      id under one of `vpsid`, `vps_id`, `id`, or it names a host or address
      and has no `uid`. */
  lemma AcceptedIff(fs: seq<Field>)
    ensures LooksLikeVps(NormalizeItem(fs)) <==>
      || HasKey(fs, "vpsid") || HasKey(fs, "vps_id") || HasKey(fs, "id")
      || ((HasKey(fs, "hostname") || HasKey(fs, "name") || HasKey(fs, "primary_ip") || HasKey(fs, "ip"))
          && !HasKey(fs, "uid"))
  {
    var r := NormalizeItem(fs);
    if r != fs {
      var v := r[|fs|];
      assert r == fs + [v] && v.key == "vpsid";
      HasKeyAppend(fs, v, "vpsid");
    }
  }

  /** Normalising twice changes nothing more than normalising once. */
  lemma NormalizeIdempotent(fs: seq<Field>)
    ensures NormalizeItem(NormalizeItem(fs)) == NormalizeItem(fs)
  {
    var r := NormalizeItem(fs);
    if r != fs {
      HasKeyAppend(fs, r[|fs|], "vpsid");
      assert r == fs + [r[|fs|]];
    }
  }

  /** Normalisation adds at most the `vpsid` entry: every other key reads as
      before, and a dict stays a dict. */
  lemma NormalizeKeepsOtherKeys(fs: seq<Field>)
    ensures forall k :: k != "vpsid" ==> Get(NormalizeItem(fs), k) == Get(fs, k)
    ensures UniqueKeys(fs) ==> UniqueKeys(NormalizeItem(fs))
  {
    var r := NormalizeItem(fs);
    if r != fs {
      assert !HasKey(fs, "vpsid");
      assert r == Put(fs, "vpsid", r[|fs|].value);
      PutGet(fs, "vpsid", r[|fs|].value);
    }
  }

  /** The filtered copies of the dict entries of `xs`, in order: the loops
      of bot.py:354-358, 368-372, 396-401 and 405-411. Non-dict entries are skipped. */
  function Accepted(xs: seq<Json>): (r: seq<Json>)
    ensures |r| <= |xs|
    ensures forall i :: 0 <= i < |r| ==> IsVmRecord(r[i])
    ensures forall i :: 0 <= i < |r| ==>
              exists j :: 0 <= j < |xs| && xs[j].JObj? && r[i] == JObj(NormalizeItem(xs[j].fields))
  {
    if xs == [] then []
    else
      var rest := Accepted(xs[..|xs| - 1]);
      var x := xs[|xs| - 1];
      assert forall j :: 0 <= j < |xs| - 1 ==> xs[..|xs| - 1][j] == xs[j];
      if x.JObj? && LooksLikeVps(NormalizeItem(x.fields)) then rest + [JObj(NormalizeItem(x.fields))]
      else rest
  }

  /** The filter keeps nothing exactly when no dict entry passes it; this is
      what the tests of bot.py:358, 372, 402 and 412 decide. */
  lemma {:induction false} AcceptedEmptyIff(xs: seq<Json>)
    ensures Accepted(xs) == [] <==>
              forall j :: 0 <= j < |xs| ==> !(xs[j].JObj? && LooksLikeVps(NormalizeItem(xs[j].fields)))
  {
    if xs != [] {
      var init := xs[..|xs| - 1];
      AcceptedEmptyIff(init);
      assert forall j :: 0 <= j < |init| ==> init[j] == xs[j];
    }
  }

  /** Filtering works entry by entry: the kept entries of a concatenation
      are those of each part, in order. */
  lemma {:induction false} AcceptedAppend(xs: seq<Json>, ys: seq<Json>)
    ensures Accepted(xs + ys) == Accepted(xs) + Accepted(ys)
  {
    if ys == [] {
      assert xs + ys == xs;
    } else {
      var init := ys[..|ys| - 1];
      AcceptedAppend(xs, init);
      assert (xs + ys)[..|xs + ys| - 1] == xs + init;
    }
  }

  /** Every dict entry that passes the filter is kept: a single entry is
      kept exactly when it is a dict whose normalised copy looks like a VM. */
  lemma AcceptedSingle(x: Json)
    ensures Accepted([x]) == (if x.JObj? && LooksLikeVps(NormalizeItem(x.fields)) then [JObj(NormalizeItem(x.fields))] else [])
  {
    assert [x][..0] == [];
  }

  /** The loop body shared by every filter loop in bot.py. */
  method CollectAccepted(xs: seq<Json>) returns (out: seq<Json>)
    ensures out == Accepted(xs)
  {
    out := [];
    var i := 0;
    while i < |xs|
      invariant 0 <= i <= |xs|
      invariant out == Accepted(xs[..i])
    {
      assert xs[..i + 1][..i] == xs[..i];
      var it := xs[i];
      if it.JObj? {
        var n := NormalizeItem(it.fields);
        if LooksLikeVps(n) {
          out := out + [JObj(n)];
        }
      }
      i := i + 1;
    }
    assert xs[..i] == xs;
  }

  // ---------------------------------------------------------------------
  // `deep_find_vps_list`: bounded depth-first scan, then dedup by id
  // ---------------------------------------------------------------------

  /** Default `limit` of `deep_find_vps_list`. */
  const VisitLimit: nat := 5000
  /** The scan stops adding once more than this many records were found. */
  const FoundCap: nat := 500

  /** The walk's `nonlocal` variables, threaded through explicitly. */
  datatype ScanState = ScanState(visited: nat, found: seq<Json>)

  /** The guard at the head of `walk`. */
  predicate Exhausted(st: ScanState, limit: nat) {
    st.visited > limit || |st.found| > FoundCap
  }

  predicate AllObjects(xs: seq<Json>) {
    forall i :: 0 <= i < |xs| ==> xs[i].JObj?
  }

  /** A non-empty list (or the values of a non-empty dict) made only of dicts,
      at least one of which is VM-like: the scan takes it as "the list". */
  predicate IsCollection(xs: seq<Json>) {
    xs != [] && AllObjects(xs) && Accepted(xs) != []
  }

  /** `walk(x)` as a function of the state before the call. */
  function Walked(x: Json, st: ScanState, limit: nat): ScanState
    decreases x
  {
    if Exhausted(st, limit) then st
    else
      var st1 := ScanState(st.visited + 1, st.found);
      match x
      case JList(xs) =>
        if IsCollection(xs) then ScanState(st1.visited, st1.found + Accepted(xs))
        else WalkedList(xs, st1, limit)
      case JObj(fs) =>
        if IsCollection(Values(fs)) then ScanState(st1.visited, st1.found + Accepted(Values(fs)))
        else WalkedFields(fs, st1, limit)
      case _ => st1
  }

  /** `for i in x: walk(i)` */
  function WalkedList(xs: seq<Json>, st: ScanState, limit: nat): ScanState
    decreases xs
  {
    if xs == [] then st else Walked(xs[|xs| - 1], WalkedList(xs[..|xs| - 1], st, limit), limit)
  }

  /** `for v in x.values(): walk(v)` */
  function WalkedFields(fs: seq<Field>, st: ScanState, limit: nat): ScanState
    decreases fs
  {
    if fs == [] then st else Walked(fs[|fs| - 1].value, WalkedFields(fs[..|fs| - 1], st, limit), limit)
  }

  /** What a walk may do to the state: the counter only grows and never past
      `limit + 1` once within it, the found list only grows at its end, and
      whatever it adds is a VM record. */
  ghost predicate Extends(st: ScanState, st': ScanState, limit: nat) {
    && st.visited <= st'.visited
    && (st.visited <= limit + 1 ==> st'.visited <= limit + 1)
    && |st.found| <= |st'.found|
    && st'.found[..|st.found|] == st.found
    && (forall i :: |st.found| <= i < |st'.found| ==> IsVmRecord(st'.found[i]))
  }

  lemma ExtendsTrans(a: ScanState, b: ScanState, c: ScanState, limit: nat)
    requires Extends(a, b, limit) && Extends(b, c, limit)
    ensures Extends(a, c, limit)
  {
    assert c.found[..|a.found|] == c.found[..|b.found|][..|a.found|];
    forall i | |a.found| <= i < |c.found|
      ensures IsVmRecord(c.found[i])
    {
      if i < |b.found| {
        assert c.found[i] == c.found[..|b.found|][i] == b.found[i];
      }
    }
  }

  lemma {:induction false} WalkedExtends(x: Json, st: ScanState, limit: nat)
    ensures Extends(st, Walked(x, st, limit), limit)
    decreases x
  {
    if !Exhausted(st, limit) {
      var st1 := ScanState(st.visited + 1, st.found);
      assert Extends(st, st1, limit);
      match x
      case JList(xs) =>
        if !IsCollection(xs) {
          WalkedListExtends(xs, st1, limit);
          ExtendsTrans(st, st1, WalkedList(xs, st1, limit), limit);
        }
      case JObj(fs) =>
        if !IsCollection(Values(fs)) {
          WalkedFieldsExtends(fs, st1, limit);
          ExtendsTrans(st, st1, WalkedFields(fs, st1, limit), limit);
        }
      case _ =>
    }
  }

  lemma {:induction false} WalkedListExtends(xs: seq<Json>, st: ScanState, limit: nat)
    ensures Extends(st, WalkedList(xs, st, limit), limit)
    decreases xs
  {
    if xs != [] {
      var mid := WalkedList(xs[..|xs| - 1], st, limit);
      WalkedListExtends(xs[..|xs| - 1], st, limit);
      WalkedExtends(xs[|xs| - 1], mid, limit);
      ExtendsTrans(st, mid, Walked(xs[|xs| - 1], mid, limit), limit);
    }
  }

  lemma {:induction false} WalkedFieldsExtends(fs: seq<Field>, st: ScanState, limit: nat)
    ensures Extends(st, WalkedFields(fs, st, limit), limit)
    decreases fs
  {
    if fs != [] {
      var mid := WalkedFields(fs[..|fs| - 1], st, limit);
      WalkedFieldsExtends(fs[..|fs| - 1], st, limit);
      WalkedExtends(fs[|fs| - 1].value, mid, limit);
      ExtendsTrans(st, mid, Walked(fs[|fs| - 1].value, mid, limit), limit);
    }
  }

  /** The scan visits at most `limit + 1` nodes, whatever the size of the
      document, and everything it collects is a VM record. */
  lemma ScanBounded(x: Json, limit: nat)
    ensures Walked(x, ScanState(0, []), limit).visited <= limit + 1
    ensures forall r :: r in Walked(x, ScanState(0, []), limit).found ==> IsVmRecord(r)
  {
    WalkedExtends(x, ScanState(0, []), limit);
  }

  /** Once the counter passed `limit` or more than 500 records were found,
      walking any further list of nodes changes nothing. */
  lemma {:induction false} ExhaustedIsFinal(xs: seq<Json>, st: ScanState, limit: nat)
    requires Exhausted(st, limit)
    ensures WalkedList(xs, st, limit) == st
    decreases xs
  {
    if xs != [] {
      ExhaustedIsFinal(xs[..|xs| - 1], st, limit);
    }
  }

  /** A list of dicts of which some are VM-like is taken whole: its filtered
      records are appended, the node counts as one visit, and none of its
      children is walked. */
  lemma CollectionNotDescended(xs: seq<Json>, st: ScanState, limit: nat)
    requires !Exhausted(st, limit) && IsCollection(xs)
    ensures Walked(JList(xs), st, limit) == ScanState(st.visited + 1, st.found + Accepted(xs))
  {
  }

  /** The same for a dict whose values are all dicts. */
  lemma DictCollectionNotDescended(fs: seq<Field>, st: ScanState, limit: nat)
    requires !Exhausted(st, limit) && IsCollection(Values(fs))
    ensures Walked(JObj(fs), st, limit) == ScanState(st.visited + 1, st.found + Accepted(Values(fs)))
  {
  }

  /** `str(it.get("vpsid") or "")`: the id under which a record is known. */
  function IdOf(item: Json): string {
    var v := GetKey(item, "vpsid");
    PyStr(if Truthy(v) then v else JStr(""))
  }

  /** The `uniq` dict of bot.py:382-386 after the first records of `found`. */
  function Uniq(found: seq<Json>): seq<Field> {
    if found == [] then []
    else
      var u := Uniq(found[..|found| - 1]);
      var it := found[|found| - 1];
      if IdOf(it) != "" then Put(u, IdOf(it), it) else u
  }

  /** `list(uniq.values()) if uniq else found` */
  function Deduped(found: seq<Json>): seq<Json> {
    var u := Uniq(found);
    if u != [] then Values(u) else found
  }

  /** Index of the first record of `found` with id `k`, or `|found|`. */
  function FirstSeen(found: seq<Json>, k: string): (i: nat)
    ensures i <= |found|
  {
    if found == [] then 0
    else
      var f := FirstSeen(found[..|found| - 1], k);
      if f < |found| - 1 then f else if IdOf(found[|found| - 1]) == k then |found| - 1 else |found|
  }

  /** Index of the last record of `found` with id `k`, or -1. */
  function LastSeen(found: seq<Json>, k: string): (i: int)
    ensures -1 <= i < |found|
  {
    if found == [] then -1
    else if IdOf(found[|found| - 1]) == k then |found| - 1
    else LastSeen(found[..|found| - 1], k)
  }

  lemma {:induction false} FirstSeenIsFirst(found: seq<Json>, k: string)
    ensures FirstSeen(found, k) < |found| ==> IdOf(found[FirstSeen(found, k)]) == k
    ensures forall j :: 0 <= j < FirstSeen(found, k) ==> IdOf(found[j]) != k
  {
    if found != [] {
      var init := found[..|found| - 1];
      FirstSeenIsFirst(init, k);
      assert forall j :: 0 <= j < |init| ==> init[j] == found[j];
    }
  }

  /** Appending a record does not move the first sighting of an id already seen. */
  lemma FirstSeenAppend(found: seq<Json>, k: string)
    requires found != []
    ensures var init := found[..|found| - 1];
            && (FirstSeen(init, k) < |init| ==> FirstSeen(found, k) == FirstSeen(init, k))
            && (FirstSeen(init, k) == |init| ==>
                  FirstSeen(found, k) == if IdOf(found[|found| - 1]) == k then |init| else |found|)
  {
  }

  /** The dedup keeps exactly one slot per distinct non-empty id. */
  lemma {:induction false} UniqKeys(found: seq<Json>)
    ensures UniqueKeys(Uniq(found))
    ensures forall k :: HasKey(Uniq(found), k) <==> k != "" && FirstSeen(found, k) < |found|
  {
    if found != [] {
      var init := found[..|found| - 1];
      var it := found[|found| - 1];
      var u0 := Uniq(init);
      var id := IdOf(it);
      UniqKeys(init);
      forall k
        ensures HasKey(Uniq(found), k) <==> k != "" && FirstSeen(found, k) < |found|
      {
        FirstSeenAppend(found, k);
        if id != "" {
          PutGet(u0, id, it);
        }
      }
      if id != "" {
        PutGet(u0, id, it);
      }
    }
  }

  /** Each slot holds the last record seen with its id. */
  lemma {:induction false} UniqLastWins(found: seq<Json>)
    ensures forall p :: 0 <= p < |Uniq(found)| ==>
              0 <= LastSeen(found, Uniq(found)[p].key)
              && Uniq(found)[p].value == found[LastSeen(found, Uniq(found)[p].key)]
  {
    if found != [] {
      var init := found[..|found| - 1];
      var it := found[|found| - 1];
      var u0 := Uniq(init);
      var u := Uniq(found);
      var id := IdOf(it);
      UniqLastWins(init);
      UniqKeys(init);
      UniqKeys(found);
      forall p | 0 <= p < |u|
        ensures 0 <= LastSeen(found, u[p].key) && u[p].value == found[LastSeen(found, u[p].key)]
      {
        var k := u[p].key;
        if id != "" && k == id {
          if HasKey(u0, id) {
            assert u == u0[IndexOf(u0, id) := Field(id, it)];
            assert p == IndexOf(u0, id);
          } else {
            assert u == u0 + [Field(id, it)];
            assert forall q :: 0 <= q < |u0| ==> u0[q].key != id;
            assert p == |u0|;
          }
          assert LastSeen(found, k) == |found| - 1;
        } else {
          assert HasKey(u, k);
          assert k != id;
          assert LastSeen(found, k) == LastSeen(init, k);
          if id != "" && HasKey(u0, id) {
            assert u == u0[IndexOf(u0, id) := Field(id, it)];
            assert u[p] == u0[p];
          } else if id != "" {
            assert u == u0 + [Field(id, it)];
            assert u[p] == u0[p];
          }
          assert u[p] == u0[p];
          assert init[LastSeen(init, k)] == found[LastSeen(init, k)];
        }
      }
    }
  }

  /** Slots appear in the order their ids were first seen. */
  lemma {:induction false} UniqFirstSeenOrder(found: seq<Json>)
    ensures forall p, q :: 0 <= p < q < |Uniq(found)| ==>
              FirstSeen(found, Uniq(found)[p].key) < FirstSeen(found, Uniq(found)[q].key)
  {
    if found != [] {
      var init := found[..|found| - 1];
      var it := found[|found| - 1];
      var u0 := Uniq(init);
      var u := Uniq(found);
      var id := IdOf(it);
      UniqFirstSeenOrder(init);
      UniqKeys(init);
      forall p, q | 0 <= p < q < |u|
        ensures FirstSeen(found, u[p].key) < FirstSeen(found, u[q].key)
      {
        if id != "" && !HasKey(u0, id) {
          assert u == u0 + [Field(id, it)];
          assert u[p] == u0[p];
          assert HasKey(u0, u0[p].key);
          FirstSeenAppend(found, u[p].key);
          FirstSeenAppend(found, u[q].key);
          if q < |u0| {
            assert u[q] == u0[q];
            assert HasKey(u0, u0[q].key);
          }
        } else {
          assert |u| == |u0| && u[p].key == u0[p].key && u[q].key == u0[q].key;
          assert HasKey(u0, u0[p].key) && HasKey(u0, u0[q].key);
          FirstSeenAppend(found, u[p].key);
          FirstSeenAppend(found, u[q].key);
        }
      }
    }
  }

  /** `deep_find_vps_list(obj, limit)` as a function. */
  function DeepFound(obj: Json, limit: nat): seq<Json> {
    Deduped(Walked(obj, ScanState(0, []), limit).found)
  }

  /** When some record has an id, the scan answers one record per distinct
      id (the last seen, in first-seen order); otherwise the raw found list. */
  lemma DeepFoundShape(obj: Json, limit: nat)
    ensures var found := Walked(obj, ScanState(0, []), limit).found;
            && (Uniq(found) == [] <==> forall i :: 0 <= i < |found| ==> IdOf(found[i]) == "")
            && (Uniq(found) == [] ==> DeepFound(obj, limit) == found)
            && (Uniq(found) != [] ==>
                  && |DeepFound(obj, limit)| == |Uniq(found)|
                  && (forall p :: 0 <= p < |Uniq(found)| ==>
                        && 0 <= LastSeen(found, Uniq(found)[p].key)
                        && DeepFound(obj, limit)[p] == found[LastSeen(found, Uniq(found)[p].key)]
                        && IdOf(DeepFound(obj, limit)[p]) == Uniq(found)[p].key))
    ensures forall r :: r in DeepFound(obj, limit) ==> IsVmRecord(r)
  {
    var found := Walked(obj, ScanState(0, []), limit).found;
    var u := Uniq(found);
    UniqKeys(found);
    UniqLastWins(found);
    ScanBounded(obj, limit);
    forall i | 0 <= i < |found| && u == []
      ensures IdOf(found[i]) == ""
    {
      var k := IdOf(found[i]);
      FirstSeenIsFirst(found, k);
      assert !HasKey(u, k);
    }
    if u != [] {
      assert HasKey(u, u[0].key);
      FirstSeenIsFirst(found, u[0].key);
      forall p | 0 <= p < |u|
        ensures IdOf(found[LastSeen(found, u[p].key)]) == u[p].key
      {
        LastSeenIsLast(found, u[p].key);
      }
      forall r | r in DeepFound(obj, limit)
        ensures IsVmRecord(r)
      {
        var p :| 0 <= p < |u| && Values(u)[p] == r;
        assert found[LastSeen(found, u[p].key)] in found;
      }
    }
  }

  lemma {:induction false} LastSeenIsLast(found: seq<Json>, k: string)
    ensures LastSeen(found, k) >= 0 ==> IdOf(found[LastSeen(found, k)]) == k
    ensures forall j :: LastSeen(found, k) < j < |found| ==> IdOf(found[j]) != k
  {
    if found != [] {
      var init := found[..|found| - 1];
      LastSeenIsLast(init, k);
      assert forall j :: 0 <= j < |init| ==> init[j] == found[j];
    }
  }

  /** `walk`, with the counters threaded through instead of `nonlocal`. */
  method Walk(x: Json, st: ScanState, limit: nat) returns (r: ScanState)
    ensures r == Walked(x, st, limit)
    decreases x
  {
    if st.visited > limit || |st.found| > FoundCap {
      return st;
    }
    r := ScanState(st.visited + 1, st.found);
    match x {
      case JList(xs) =>
        if xs != [] && AllObjects(xs) {
          var items := CollectAccepted(xs);
          if |items| >= 1 {
            return ScanState(r.visited, r.found + items);
          }
        }
        r := WalkList(xs, r, limit);
      case JObj(fs) =>
        var vals := Values(fs);
        if vals != [] && AllObjects(vals) {
          var items := CollectAccepted(vals);
          if |items| >= 1 {
            return ScanState(r.visited, r.found + items);
          }
        }
        r := WalkFields(fs, r, limit);
      case _ =>
    }
  }

  /** `for i in x: walk(i)` */
  method WalkList(xs: seq<Json>, st: ScanState, limit: nat) returns (r: ScanState)
    ensures r == WalkedList(xs, st, limit)
    decreases xs
  {
    r := st;
    var i := 0;
    while i < |xs|
      invariant 0 <= i <= |xs|
      invariant r == WalkedList(xs[..i], st, limit)
    {
      assert xs[..i + 1][..i] == xs[..i];
      r := Walk(xs[i], r, limit);
      i := i + 1;
    }
    assert xs[..i] == xs;
  }

  /** `for v in x.values(): walk(v)` */
  method WalkFields(fs: seq<Field>, st: ScanState, limit: nat) returns (r: ScanState)
    ensures r == WalkedFields(fs, st, limit)
    decreases fs
  {
    r := st;
    var i := 0;
    while i < |fs|
      invariant 0 <= i <= |fs|
      invariant r == WalkedFields(fs[..i], st, limit)
    {
      assert fs[..i + 1][..i] == fs[..i];
      r := Walk(fs[i].value, r, limit);
      i := i + 1;
    }
    assert fs[..i] == fs;
  }

  /** `deep_find_vps_list(obj, limit)` */
  method DeepFindVpsList(obj: Json, limit: nat) returns (r: seq<Json>)
    ensures r == DeepFound(obj, limit)
  {
    var st := Walk(obj, ScanState(0, []), limit);
    var found := st.found;
    var uniq: seq<Field> := [];
    var i := 0;
    while i < |found|
      invariant 0 <= i <= |found|
      invariant uniq == Uniq(found[..i])
    {
      assert found[..i + 1][..i] == found[..i];
      var it := found[i];
      var vid := IdOf(it);
      if vid != "" {
        uniq := Put(uniq, vid, it);
      }
      i := i + 1;
    }
    assert found[..i] == found;
    r := if uniq != [] then Values(uniq) else found;
  }

  // ---------------------------------------------------------------------
  // `pick_vps_list` and `pick_vps_details`
  // ---------------------------------------------------------------------

  /** The well-known keys `pick_vps_list` tries, in order. */
  const ListKeys: seq<string> := ["vs", "vps", "data", "result"]

  /** What one well-known value yields: the filtered dict entries of a list,
      or the filtered dict values of a dict; nothing for anything else. */
  function Candidates(v: Json): seq<Json> {
    match v
    case JList(xs) => Accepted(xs)
    case JObj(fs) => Accepted(Values(fs))
    case _ => []
  }

  function FromKeys(api: Json, keys: seq<string>): seq<Json> {
    if keys == [] then DeepFound(api, VisitLimit)
    else if Candidates(GetKey(api, keys[0])) != [] then Candidates(GetKey(api, keys[0]))
    else FromKeys(api, keys[1..])
  }

  /** `pick_vps_list(api_data)` as a function. */
  function VpsList(api: Json): (r: seq<Json>)
    ensures !api.JObj? ==> r == []
  {
    if api.JObj? then FromKeys(api, ListKeys) else []
  }

  /** The first well-known key whose value yields records decides the answer. */
  lemma {:induction false} VpsListFirstMatch(api: Json, i: nat)
    requires api.JObj? && i < |ListKeys|
    requires forall j :: 0 <= j < i ==> Candidates(GetKey(api, ListKeys[j])) == []
    requires Candidates(GetKey(api, ListKeys[i])) != []
    ensures VpsList(api) == Candidates(GetKey(api, ListKeys[i]))
  {
    var k := 0;
    while k < i
      invariant k <= i
      invariant FromKeys(api, ListKeys) == FromKeys(api, ListKeys[k..])
    {
      assert ListKeys[k..][1..] == ListKeys[k + 1..];
      k := k + 1;
    }
  }

  /** Only when no well-known key yields records does the deep scan run. */
  lemma {:induction false} VpsListFallback(api: Json)
    requires api.JObj?
    requires forall j :: 0 <= j < |ListKeys| ==> Candidates(GetKey(api, ListKeys[j])) == []
    ensures VpsList(api) == DeepFound(api, VisitLimit)
  {
    var k := 0;
    while k < |ListKeys|
      invariant k <= |ListKeys|
      invariant FromKeys(api, ListKeys) == FromKeys(api, ListKeys[k..])
    {
      assert ListKeys[k..][1..] == ListKeys[k + 1..];
      k := k + 1;
    }
  }

  /** Every record `pick_vps_list` returns is a VM-like dict. */
  lemma {:induction false} VpsListRecords(api: Json)
    ensures forall r :: r in VpsList(api) ==> IsVmRecord(r)
  {
    if api.JObj? {
      var k := 0;
      while k < |ListKeys| && Candidates(GetKey(api, ListKeys[k])) == []
        invariant k <= |ListKeys|
        invariant FromKeys(api, ListKeys) == FromKeys(api, ListKeys[k..])
      {
        assert ListKeys[k..][1..] == ListKeys[k + 1..];
        k := k + 1;
      }
      if k == |ListKeys| {
        DeepFoundShape(api, VisitLimit);
      }
    }
  }

  /** `pick_vps_list(api_data)` */
  method PickVpsList(api: Json) returns (out: seq<Json>)
    ensures out == VpsList(api)
  {
    if !api.JObj? {
      return [];
    }
    var keys := ListKeys;
    var i := 0;
    while i < |keys|
      invariant 0 <= i <= |keys|
      invariant VpsList(api) == FromKeys(api, keys[i..])
    {
      assert keys[i..][1..] == keys[i + 1..];
      var v := GetKey(api, keys[i]);
      if v.JList? {
        out := CollectAccepted(v.items);
        if out != [] {
          return;
        }
      }
      if v.JObj? {
        out := CollectAccepted(Values(v.fields));
        if out != [] {
          return;
        }
      }
      i := i + 1;
    }
    out := DeepFindVpsList(api, VisitLimit);
  }

  /** The well-known keys `pick_vps_details` tries, in order. */
  const DetailKeys: seq<string> := ["info", "vps", "vs", "data", "result"]

  /** A dict that names a VM by id, host or address. */
  predicate IsDetail(v: Json) {
    v.JObj? &&
      (HasKey(v.fields, "vpsid") || HasKey(v.fields, "hostname") || HasKey(v.fields, "name")
       || HasKey(v.fields, "primary_ip") || HasKey(v.fields, "ip"))
  }

  function DetailFrom(api: Json, keys: seq<string>): (r: Json)
    ensures api.JObj? ==> r.JObj?
  {
    if keys == [] then api
    else if IsDetail(GetKey(api, keys[0])) then GetKey(api, keys[0])
    else DetailFrom(api, keys[1..])
  }

  /** `pick_vps_details(api_data)` */
  function PickVpsDetails(api: Json): (r: Json)
    ensures !api.JObj? ==> r == JObj([])
    ensures r.JObj?
  {
    if api.JObj? then DetailFrom(api, DetailKeys) else JObj([])
  }

  /** The first well-known key holding a VM-like dict gives the details. */
  lemma {:induction false} DetailsFirstMatch(api: Json, i: nat)
    requires api.JObj? && i < |DetailKeys|
    requires forall j :: 0 <= j < i ==> !IsDetail(GetKey(api, DetailKeys[j]))
    requires IsDetail(GetKey(api, DetailKeys[i]))
    ensures PickVpsDetails(api) == GetKey(api, DetailKeys[i])
  {
    var k := 0;
    while k < i
      invariant k <= i
      invariant DetailFrom(api, DetailKeys) == DetailFrom(api, DetailKeys[k..])
    {
      assert DetailKeys[k..][1..] == DetailKeys[k + 1..];
      k := k + 1;
    }
  }

  /** With no such key the whole reply is the detail record; no deep scan. */
  lemma {:induction false} DetailsFallback(api: Json)
    requires api.JObj?
    requires forall j :: 0 <= j < |DetailKeys| ==> !IsDetail(GetKey(api, DetailKeys[j]))
    ensures PickVpsDetails(api) == api
  {
    var k := 0;
    while k < |DetailKeys|
      invariant k <= |DetailKeys|
      invariant DetailFrom(api, DetailKeys) == DetailFrom(api, DetailKeys[k..])
    {
      assert DetailKeys[k..][1..] == DetailKeys[k + 1..];
      k := k + 1;
    }
  }
}

=== FILE: panel.dfy ===
/** The pure parts of `v_api_request` (bot.py:296-318): the query it sends and
    the shape it guarantees for what it returns. The HTTP exchange itself is
    not part of this model. */
module Panel {
  import opened Json

  /** The query string of bot.py:301-303: the action and credentials, then
      the caller's parameters, which override any base entry of the same name. */
  function BuildQuery(act: string, apiKey: string, apiPass: string, params: seq<Field>): (r: seq<Field>)
    ensures UniqueKeys(params) ==> UniqueKeys(r)
    ensures UniqueKeys(params) ==> forall i :: 0 <= i < |params| ==> Get(r, params[i].key) == params[i].value
    ensures UniqueKeys(params) && !HasKey(params, "act") ==> Get(r, "act") == JStr(act)
    ensures UniqueKeys(params) && !HasKey(params, "api") ==> Get(r, "api") == JStr("json")
    ensures UniqueKeys(params) && !HasKey(params, "apikey") ==> Get(r, "apikey") == JStr(apiKey)
    ensures UniqueKeys(params) && !HasKey(params, "apipass") ==> Get(r, "apipass") == JStr(apiPass)
  {
    var base := [Field("act", JStr(act)), Field("api", JStr("json")),
                 Field("apikey", JStr(apiKey)), Field("apipass", JStr(apiPass))];
    BaseReads(base, act, apiKey, apiPass);
    UpdatedReadsWhenUnique(base, params);
    Updated(base, params)
  }

  lemma UpdatedReadsWhenUnique(q: seq<Field>, params: seq<Field>)
    requires UniqueKeys(q)
    ensures UniqueKeys(params) ==> UniqueKeys(Updated(q, params))
    ensures UniqueKeys(params) ==>
              forall i :: 0 <= i < |params| ==> Get(Updated(q, params), params[i].key) == params[i].value
    ensures UniqueKeys(params) ==> forall k :: !HasKey(params, k) ==> Get(Updated(q, params), k) == Get(q, k)
  {
    if UniqueKeys(params) {
      UpdatedReads(q, params);
    }
  }

  /** The fixed part of every request reads as given, and has no repeated key. */
  lemma BaseReads(base: seq<Field>, act: string, apiKey: string, apiPass: string)
    requires base == [Field("act", JStr(act)), Field("api", JStr("json")),
                      Field("apikey", JStr(apiKey)), Field("apipass", JStr(apiPass))]
    ensures UniqueKeys(base)
    ensures Get(base, "act") == JStr(act) && Get(base, "api") == JStr("json")
    ensures Get(base, "apikey") == JStr(apiKey) && Get(base, "apipass") == JStr(apiPass)
  {
    GetAt(base, 0);
    GetAt(base, 1);
    GetAt(base, 2);
    GetAt(base, 3);
  }

  /** `q.update(params)` */
  function Updated(q: seq<Field>, params: seq<Field>): seq<Field> {
    if params == [] then q
    else Put(Updated(q, params[..|params| - 1]), params[|params| - 1].key, params[|params| - 1].value)
  }

  /** After the update every parameter reads as given, every other key reads
      as before, and no key appears twice. */
  lemma {:induction false} UpdatedReads(q: seq<Field>, params: seq<Field>)
    requires UniqueKeys(q) && UniqueKeys(params)
    ensures UniqueKeys(Updated(q, params))
    ensures forall i :: 0 <= i < |params| ==> Get(Updated(q, params), params[i].key) == params[i].value
    ensures forall k :: !HasKey(params, k) ==> Get(Updated(q, params), k) == Get(q, k)
  {
    if params != [] {
      var init := params[..|params| - 1];
      var last := params[|params| - 1];
      assert UniqueKeys(init);
      UpdatedReads(q, init);
      PutGet(Updated(q, init), last.key, last.value);
      forall i | 0 <= i < |params| - 1
        ensures params[i].key != last.key && init[i] == params[i]
      {
      }
      forall k | !HasKey(params, k)
        ensures !HasKey(init, k) && k != last.key
      {
        assert forall j :: 0 <= j < |init| ==> init[j].key == params[j].key;
        assert params[|params| - 1] == last;
      }
    }
  }

  /** The request for one VM's details (bot.py:905) carries that VM's id and
      the panel's fixed fields. */
  lemma DetailQuery(apiKey: string, apiPass: string, vpsId: string)
    ensures var q := BuildQuery("managevs", apiKey, apiPass, [Field("vpsid", JStr(vpsId))]);
            && Get(q, "vpsid") == JStr(vpsId) && Get(q, "act") == JStr("managevs")
            && Get(q, "api") == JStr("json") && Get(q, "apikey") == JStr(apiKey)
            && Get(q, "apipass") == JStr(apiPass)
  {
    var base := [Field("act", JStr("managevs")), Field("api", JStr("json")),
                 Field("apikey", JStr(apiKey)), Field("apipass", JStr(apiPass))];
    var params := [Field("vpsid", JStr(vpsId))];
    assert params[..0] == [];
    assert Updated(base, params) == Put(base, "vpsid", JStr(vpsId));
    assert !HasKey(base, "vpsid");
    var q := base + [Field("vpsid", JStr(vpsId))];
    assert BuildQuery("managevs", apiKey, apiPass, params) == q;
    GetAt(q, 0);
    GetAt(q, 1);
    GetAt(q, 2);
    GetAt(q, 3);
    GetAt(q, 4);
  }

  /** An entry whose key does not occur before it is what `Get` finds. */
  lemma GetAt(fs: seq<Field>, i: nat)
    requires i < |fs| && forall j :: 0 <= j < i ==> fs[j].key != fs[i].key
    ensures Get(fs, fs[i].key) == fs[i].value
  {
    assert HasKey(fs, fs[i].key);
  }

  /** bot.py:316-318: a decoded body that is not a dict is wrapped as
      `{"raw": body}`, so callers always get a dict. */
  function WrapResponse(data: Json): (r: Json)
    ensures r.JObj?
    ensures data.JObj? ==> r == data
    ensures !data.JObj? ==> Get(r.fields, "raw") == data && |r.fields| == 1
  {
    if data.JObj? then data
    else
      var r := JObj([Field("raw", data)]);
      assert r.fields[0].key == "raw";
      assert IndexOf(r.fields, "raw") == 0;
      r
  }
}

=== FILE: scenarios.dfy ===
/** Worked examples of the alert engine on concrete panel replies. */
module Scenarios {
  import opened Wrappers
  import opened Json
  import opened Normalize
  import opened Usage
  import opened Panel
  import opened Alerts

  /** The detail reply of the first example: 40 of 50 units of disk used. */
  function DiskSample(): Json {
    JObj([Field("disk_used", JInt(40)), Field("disk", JInt(50))])
  }

  /** Only `disk_used` and `disk` are present in the sample. */
  lemma DiskSampleGet(k: string)
    ensures k == "disk_used" ==> GetKey(DiskSample(), k) == JInt(40)
    ensures k == "disk" ==> GetKey(DiskSample(), k) == JInt(50)
    ensures k != "disk_used" && k != "disk" ==> GetKey(DiskSample(), k) == JNull
  {
    var fs := DiskSample().fields;
    assert fs[0].key == "disk_used" && fs[1].key == "disk";
    if k == "disk_used" {
      assert IndexOf(fs, k) == 0;
    } else if k == "disk" {
      assert HasKey(fs, k);
      assert IndexOf(fs, k) == 1;
    }
  }

  lemma DiskSampleUsage()
    ensures ExtractUsage(DiskSample(), Disk) == Some((40, 50))
    ensures ExtractUsage(DiskSample(), Bandwidth) == None
  {
    var info := DiskSample();
    DiskSampleGet("disk_used");
    DiskSampleGet("disk");
    assert OrChain(info, UsedAliases(Disk)) == JInt(40);
    assert OrChain(info, TotalAliases(Disk)) == JInt(50);
    forall j | 0 <= j < 4
      ensures GetKey(info, UsedAliases(Bandwidth)[j]) == JNull
    {
      DiskSampleGet(UsedAliases(Bandwidth)[j]);
    }
    OrChainNoneTruthy(info, UsedAliases(Bandwidth));
  }

  lemma DiskSampleLabels()
    ensures FirstTruthyText(DiskSample(), ["hostname", "name"], "VPS 7") == "VPS 7"
    ensures FirstTruthyText(DiskSample(), ["primary_ip", "ip", "ipaddress"], "-") == "-"
    ensures SuspendFlag(DiskSample()) == 0
  {
    DiskSampleGet("hostname");
    DiskSampleGet("name");
    DiskSampleGet("primary_ip");
    DiskSampleGet("ip");
    DiskSampleGet("ipaddress");
    DiskSampleGet("suspended");
    DiskSampleGet("is_suspended");
    var info := DiskSample();
    assert "VPS " + "7" == "VPS 7";
    assert FirstTruthyText(info, ["name"], "VPS 7") == "VPS 7";
    assert FirstTruthyText(info, ["hostname", "name"], "VPS 7") == "VPS 7";
    assert FirstTruthyText(info, ["ipaddress"], "-") == "-";
    assert FirstTruthyText(info, ["ip", "ipaddress"], "-") == "-";
    assert FirstTruthyText(info, ["primary_ip", "ip", "ipaddress"], "-") == "-";
  }

  /** The whole observation of that reply, polled as VM `7`: 80% disk, no
      bandwidth figure, the fallback name and address, not suspended. */
  lemma DiskSampleObservation(info: Json, id: string)
    requires info == DiskSample() && id == "7"
    ensures Observe(info, id) == Observation(Some(80), None, 0, "VPS 7", "-")
  {
    DiskSampleUsage();
    DiskSampleLabels();
    assert "VPS " + id == "VPS 7";
    FortyOfFifty(ExtractUsage(info, Disk));
  }

  /** 40 units used of 50 is 80%. */
  lemma FortyOfFifty(u: Option<(int, int)>)
    requires u == Some((40, 50))
    ensures UsagePercent(u) == Some(80)
  {
    assert ComputePercent(40, 50) == Some(80);
  }

  /** 40 of 50 units is 80%, which the default thresholds (80/100) classify
      as `warn`; the first poll of that VM sends exactly one disk notice. */
  lemma DiskAtEightyPercentWarns(info: Json, id: string)
    requires info == DiskSample() && id == "7"
    ensures var obs := Observe(info, id);
            && obs.diskPct == Some(80)
            && DiskLevel(DefaultSettings, obs) == Some(Warn)
            && VmNotices(DefaultSettings, 1, obs, NoRow)
                 == [Notice(1, DiskAlert(Warn, 80), "VPS 7", "-")]
  {
    DiskSampleObservation(info, id);
    var obs := Observation(Some(80), None, 0, "VPS 7", "-");
    assert DiskLevel(DefaultSettings, obs) == Some(Warn);
    assert BwLevel(DefaultSettings, obs) == None;
  }

  /** A stored `warn` followed by another `warn` is silent; a stored `warn`
      followed by `critical` sends exactly one notice and stores `critical`. */
  lemma WarnThenCritical(s: Settings, user: int, obs: Observation, prev: AlertRow)
    requires prev.diskLevel == Some(Warn)
    ensures DiskLevel(s, obs) == Some(Warn) ==>
              forall n :: n in VmNotices(s, user, obs, prev) ==> !n.kind.DiskAlert?
    ensures DiskLevel(s, obs) == Some(Critical) ==>
              && VmNotices(s, user, obs, prev)[0] == Notice(user, DiskAlert(Critical, obs.diskPct.value), obs.name, obs.ip)
              && (forall j :: 1 <= j < |VmNotices(s, user, obs, prev)| ==> !VmNotices(s, user, obs, prev)[j].kind.DiskAlert?)
              && NewRow(s, obs).diskLevel == Some(Critical)
  {
    LevelNoticeIff(s, user, obs, prev);
  }

  /** A VM already suspended at its first poll: nothing is sent, and the flag
      is stored as the baseline. */
  lemma SuspendedAtFirstPoll(s: Settings, user: int, obs: Observation)
    requires obs.suspended == 1
    ensures forall n :: n in VmNotices(s, user, obs, NoRow) ==> !n.kind.SuspendAlert?
    ensures NewRow(s, obs).suspend == Some(1)
  {
  }

  function Vm(host: string, id: string): Json {
    JObj([Field("hostname", JStr(host)), Field("vpsid", JStr(id))])
  }

  lemma VmIsRecord(host: string, id: string)
    ensures NormalizeItem(Vm(host, id).fields) == Vm(host, id).fields
    ensures IsVmRecord(Vm(host, id))
    ensures IdOf(Vm(host, id)) == id
  {
    var fs := Vm(host, id).fields;
    assert fs[1].key == "vpsid";
    assert HasKey(fs, "vpsid");
    assert IndexOf(fs, "vpsid") == 1;
  }

  /** The two VMs of the listing, keyed by their ids. */
  function ById(): seq<Field> {
    [Field("101", Vm("a", "101")), Field("102", Vm("b", "102"))]
  }

  lemma ByIdAccepted()
    ensures Candidates(JObj(ById())) == [Vm("a", "101"), Vm("b", "102")]
  {
    VmIsRecord("a", "101");
    VmIsRecord("b", "102");
    var xs := Values(ById());
    assert xs == [Vm("a", "101"), Vm("b", "102")];
    assert xs[..1] == [Vm("a", "101")] && xs[..1][..0] == [];
    assert Accepted(xs[..1]) == [Vm("a", "101")];
  }

  /** A listing keyed by id under `vs` yields both VMs, in order. */
  lemma ListingKeyedById()
    ensures var api := JObj([Field("vs", JObj(ById()))]);
            && VpsList(WrapResponse(api)) == [Vm("a", "101"), Vm("b", "102")]
            && IdOf(VpsList(WrapResponse(api))[0]) == "101"
            && IdOf(VpsList(WrapResponse(api))[1]) == "102"
  {
    var api := JObj([Field("vs", JObj(ById()))]);
    assert api.fields[0].key == "vs";
    assert HasKey(api.fields, "vs");
    assert IndexOf(api.fields, "vs") == 0;
    ByIdAccepted();
    VpsListFirstMatch(api, 0);
    VmIsRecord("a", "101");
    VmIsRecord("b", "102");
  }
}

=== FILE: settings.dfy ===
/** The `alert_settings` table (bot.py:69-77) and the functions that read and
    write it: `ensure_alert_settings`, `get_alert_settings` and
    `update_alert_settings` (bot.py:92-129). Columns are stored as SQLite
    integers; the booleans are read back as "non-zero". */
module SettingsTable {
  import opened Wrappers
  import opened Usage
  import opened Alerts

  /** One stored row, column by column. */
  datatype Row = Row(
    alertsEnabled: int,
    diskWarn: int, diskCritical: int,
    bwWarn: int, bwCritical: int,
    suspendAlerts: int)

  /** The row `INSERT INTO alert_settings(user_id) VALUES(?)` creates. */
  const DefaultRow: Row := Row(1, 80, 100, 80, 100, 1)

  /** `get_alert_settings` on a stored row: `bool(...)` for the toggles,
      `int(...)` for the thresholds. */
  function Read(row: Row): Settings {
    Settings(row.alertsEnabled != 0, row.diskWarn, row.diskCritical,
             row.bwWarn, row.bwCritical, row.suspendAlerts != 0)
  }

  /** A user seen for the first time gets the documented defaults. */
  lemma DefaultRowReadsDefaults()
    ensures Read(DefaultRow) == DefaultSettings
  {
  }

  datatype Column = AlertsEnabled | DiskWarn | DiskCritical | BwWarn | BwCritical | SuspendAlerts

  /** A keyword argument's value: the toggles pass a `bool`, the threshold
      form passes the `int`s `parse_percent` produced. */
  datatype SettingValue = BoolValue(b: bool) | IntValue(n: int)

  /** One `column=value` keyword argument. */
  datatype Assignment = Assignment(column: Column, value: SettingValue)

  /** Python truthiness of the value. */
  predicate IsTruthy(v: SettingValue) {
    match v
    case BoolValue(b) => b
    case IntValue(n) => n != 0
  }

  /** bot.py:124 as Python parses it: `1 if v else (0 if isinstance(v, bool) else v)`.
      The conditional binds to the right, so a truthy int becomes 1. */
  function EncodeAsWritten(v: SettingValue): (r: int)
    ensures 0 <= r <= 1
    ensures r == 1 <==> IsTruthy(v)
  {
    if IsTruthy(v) then 1 else if v.BoolValue? then 0 else v.n
  }

  /** The evidently intended `(1 if v else 0) if isinstance(v, bool) else v`:
      booleans become 0/1, integers are stored as given. */
  function Encode(v: SettingValue): (r: int)
    ensures v.BoolValue? ==> (r != 0 <==> v.b) && 0 <= r <= 1
    ensures v.IntValue? ==> r == v.n
  {
    match v
    case BoolValue(b) => if b then 1 else 0
    case IntValue(n) => n
  }

  /** The two encodings agree on every boolean, and on an integer exactly
      when it is 0 or 1. */
  lemma EncodingsAgreeIff(v: SettingValue)
    ensures v.BoolValue? ==> EncodeAsWritten(v) == Encode(v)
    ensures v.IntValue? ==> (EncodeAsWritten(v) == Encode(v) <==> v.n == 0 || v.n == 1)
  {
  }

  function SetColumn(row: Row, c: Column, n: int): (r: Row)
    ensures c == AlertsEnabled ==> r == row.(alertsEnabled := n)
    ensures c == DiskWarn ==> r == row.(diskWarn := n)
    ensures c == DiskCritical ==> r == row.(diskCritical := n)
    ensures c == BwWarn ==> r == row.(bwWarn := n)
    ensures c == BwCritical ==> r == row.(bwCritical := n)
    ensures c == SuspendAlerts ==> r == row.(suspendAlerts := n)
  {
    match c
    case AlertsEnabled => row.(alertsEnabled := n)
    case DiskWarn => row.(diskWarn := n)
    case DiskCritical => row.(diskCritical := n)
    case BwWarn => row.(bwWarn := n)
    case BwCritical => row.(bwCritical := n)
    case SuspendAlerts => row.(suspendAlerts := n)
  }

  /** The `UPDATE alert_settings SET ...` of bot.py:122-129, with the given
      value encoding. */
  function Applied(row: Row, updates: seq<Assignment>, encode: SettingValue -> int): Row {
    if updates == [] then row
    else
      var last := updates[|updates| - 1];
      SetColumn(Applied(row, updates[..|updates| - 1], encode), last.column, encode(last.value))
  }

  /** The four keyword arguments of the threshold form (bot.py:860-866). */
  function ThresholdUpdates(dw: int, dc: int, bw: int, bc: int): seq<Assignment> {
    [Assignment(DiskWarn, IntValue(dw)), Assignment(DiskCritical, IntValue(dc)),
     Assignment(BwWarn, IntValue(bw)), Assignment(BwCritical, IntValue(bc))]
  }

  /** With the intended encoding, saving the threshold form stores exactly
      the four numbers and leaves both toggles alone. */
  lemma ThresholdsRoundTrip(row: Row, dw: int, dc: int, bw: int, bc: int)
    ensures var s := Read(Applied(row, ThresholdUpdates(dw, dc, bw, bc), Encode));
            && s.diskWarn == dw && s.diskCritical == dc && s.bwWarn == bw && s.bwCritical == bc
            && s.alertsEnabled == Read(row).alertsEnabled && s.suspendAlerts == Read(row).suspendAlerts
  {
    var u := ThresholdUpdates(dw, dc, bw, bc);
    assert u[..1] == [Assignment(DiskWarn, IntValue(dw))];
    assert u[..1][..0] == [] && u[..2][..1] == u[..1] && u[..3][..2] == u[..2] && u[..4] == u;
    assert Applied(row, u[..1][..0], Encode) == row;
    var r1 := Applied(row, u[..1], Encode);
    assert r1 == SetColumn(row, DiskWarn, Encode(IntValue(dw)));
    var r2 := Applied(row, u[..2], Encode);
    var r3 := Applied(row, u[..3], Encode);
    assert r1 == row.(diskWarn := Encode(IntValue(dw)));
    assert r2 == r1.(diskCritical := Encode(IntValue(dc)));
    assert r3 == r2.(bwWarn := Encode(IntValue(bw)));
    assert Applied(row, u, Encode) == r3.(bwCritical := Encode(IntValue(bc)));
  }

  /** As written, every threshold `parse_percent` can produce (1 to 100) is
      stored as 1; the toggles are not touched. */
  lemma ThresholdsCollapseAsWritten(row: Row, dw: int, dc: int, bw: int, bc: int)
    requires 1 <= dw <= 100 && 1 <= dc <= 100 && 1 <= bw <= 100 && 1 <= bc <= 100
    ensures var s := Read(Applied(row, ThresholdUpdates(dw, dc, bw, bc), EncodeAsWritten));
            && s.diskWarn == 1 && s.diskCritical == 1 && s.bwWarn == 1 && s.bwCritical == 1
            && s.alertsEnabled == Read(row).alertsEnabled && s.suspendAlerts == Read(row).suspendAlerts
  {
    var u := ThresholdUpdates(dw, dc, bw, bc);
    assert u[..1] == [Assignment(DiskWarn, IntValue(dw))];
    assert u[..1][..0] == [] && u[..2][..1] == u[..1] && u[..3][..2] == u[..2] && u[..4] == u;
    assert Applied(row, u[..1][..0], EncodeAsWritten) == row;
    var r1 := Applied(row, u[..1], EncodeAsWritten);
    assert r1 == SetColumn(row, DiskWarn, EncodeAsWritten(IntValue(dw)));
    var r2 := Applied(row, u[..2], EncodeAsWritten);
    var r3 := Applied(row, u[..3], EncodeAsWritten);
    assert r1 == row.(diskWarn := EncodeAsWritten(IntValue(dw)));
    assert r2 == r1.(diskCritical := EncodeAsWritten(IntValue(dc)));
    assert r3 == r2.(bwWarn := EncodeAsWritten(IntValue(bw)));
    assert Applied(row, u, EncodeAsWritten) == r3.(bwCritical := EncodeAsWritten(IntValue(bc)));
  }

  /** The consequence: after a user saves 80/100, a disk at 5% reads as
      critical, where the intended thresholds call it ok. */
  lemma CollapsedThresholdsMisclassify()
    ensures Read(Applied(DefaultRow, ThresholdUpdates(80, 100, 80, 100), EncodeAsWritten)).diskCritical == 1
    ensures Classify(Some(5), 1, 1) == Some(Critical)
    ensures Read(Applied(DefaultRow, ThresholdUpdates(80, 100, 80, 100), Encode)).diskCritical == 100
    ensures Classify(Some(5), 80, 100) == Some(Ok)
  {
    ThresholdsCollapseAsWritten(DefaultRow, 80, 100, 80, 100);
    ThresholdsRoundTrip(DefaultRow, 80, 100, 80, 100);
  }

  /** A toggle (bot.py:780, 796) reads back the value written, with either
      encoding, and touches no other column. */
  lemma ToggleRoundTrip(row: Row, c: Column, b: bool)
    requires c == AlertsEnabled || c == SuspendAlerts
    ensures var s := Read(Applied(row, [Assignment(c, BoolValue(b))], Encode));
            && s == Read(Applied(row, [Assignment(c, BoolValue(b))], EncodeAsWritten))
            && (c == AlertsEnabled ==> s == Read(row).(alertsEnabled := b))
            && (c == SuspendAlerts ==> s == Read(row).(suspendAlerts := b))
  {
    var u := [Assignment(c, BoolValue(b))];
    assert u[..0] == [];
  }

  /** The `alert_settings` table, keyed by user id. */
  class SettingsStore {
    var rows: map<int, Row>

    constructor ()
      ensures rows == map[]
    {
      rows := map[];
    }

    /** `ensure_alert_settings(user_id)`: insert the default row if missing. */
    method Ensure(user: int)
      modifies this
      ensures user in old(rows) ==> rows == old(rows)
      ensures user !in old(rows) ==> rows == old(rows)[user := DefaultRow]
    {
      if user !in rows {
        rows := rows[user := DefaultRow];
      }
    }

    /** `get_alert_settings(user_id)`; a user without a row gets one with the
        defaults first. */
    method Get(user: int) returns (s: Settings)
      modifies this
      ensures user in old(rows) ==> rows == old(rows) && s == Read(old(rows)[user])
      ensures user !in old(rows) ==> rows == old(rows)[user := DefaultRow] && s == DefaultSettings
    {
      Ensure(user);
      s := Read(rows[user]);
    }

    /** `update_alert_settings(user_id, **kwargs)`, storing each value as
        `encode` turns it into a column value: bot.py:124 as written is
        `EncodeAsWritten`, the corrected statement is `Encode`. No
        arguments leaves the (ensured) row as it is. */
    method Update(user: int, updates: seq<Assignment>, encode: SettingValue -> int)
      modifies this
      ensures user in old(rows) ==> rows == old(rows)[user := Applied(old(rows)[user], updates, encode)]
      ensures user !in old(rows) ==> rows == old(rows)[user := Applied(DefaultRow, updates, encode)]
    {
      Ensure(user);
      if updates == [] {
        return;
      }
      var row := rows[user];
      var i := 0;
      while i < |updates|
        invariant 0 <= i <= |updates|
        invariant row == Applied(rows[user], updates[..i], encode)
      {
        assert updates[..i + 1][..i] == updates[..i];
        row := SetColumn(row, updates[i].column, encode(updates[i].value));
        i := i + 1;
      }
      assert updates[..i] == updates;
      rows := rows[user := row];
    }

    /** Saving the threshold form (bot.py:860-866) as bot.py:124 is
        written: every threshold `parse_percent` can produce is stored as 1. */
    method SaveThresholdsAsWritten(user: int, dw: int, dc: int, bw: int, bc: int)
      requires 1 <= dw <= 100 && 1 <= dc <= 100 && 1 <= bw <= 100 && 1 <= bc <= 100
      modifies this
      ensures rows == old(rows)[user := Applied(if user in old(rows) then old(rows)[user] else DefaultRow,
                                               ThresholdUpdates(dw, dc, bw, bc), EncodeAsWritten)]
      ensures var s := Read(rows[user]);
              && s.diskWarn == 1 && s.diskCritical == 1 && s.bwWarn == 1 && s.bwCritical == 1
              && s.alertsEnabled == (if user in old(rows) then Read(old(rows)[user]).alertsEnabled else true)
              && s.suspendAlerts == (if user in old(rows) then Read(old(rows)[user]).suspendAlerts else true)
    {
      var before := if user in rows then rows[user] else DefaultRow;
      Update(user, ThresholdUpdates(dw, dc, bw, bc), EncodeAsWritten);
      ThresholdsCollapseAsWritten(before, dw, dc, bw, bc);
    }

    /** The same save with the corrected encoding: the four numbers are
        stored as given and both toggles keep their values. */
    method SaveThresholds(user: int, dw: int, dc: int, bw: int, bc: int)
      modifies this
      ensures rows == old(rows)[user := Applied(if user in old(rows) then old(rows)[user] else DefaultRow,
                                               ThresholdUpdates(dw, dc, bw, bc), Encode)]
      ensures var s := Read(rows[user]);
              && s.diskWarn == dw && s.diskCritical == dc && s.bwWarn == bw && s.bwCritical == bc
              && s.alertsEnabled == (if user in old(rows) then Read(old(rows)[user]).alertsEnabled else true)
              && s.suspendAlerts == (if user in old(rows) then Read(old(rows)[user]).suspendAlerts else true)
    {
      var before := if user in rows then rows[user] else DefaultRow;
      Update(user, ThresholdUpdates(dw, dc, bw, bc), Encode);
      ThresholdsRoundTrip(before, dw, dc, bw, bc);
    }
  }
}

=== FILE: text.dfy ===
/** Small string helpers with the meaning Python gives them: whitespace as
    `str.strip()` sees it, ASCII decimal digits, and decimal rendering. */
module Text {

  /** The characters Python's `str.isspace()` accepts (and `str.strip()` removes). */
  predicate IsSpace(c: char) {
    || c == ' '
    || ('\t' <= c <= '\r')
    || ('\U{1C}' <= c <= '\U{1F}')
    || c == '\U{85}' || c == '\U{A0}' || c == '\U{1680}'
    || ('\U{2000}' <= c <= '\U{200A}')
    || c == '\U{2028}' || c == '\U{2029}' || c == '\U{202F}' || c == '\U{205F}'
    || c == '\U{3000}'
  }

  /** `s.lstrip()`: drop leading whitespace. */
  function TrimStart(s: string): (r: string)
    ensures |r| <= |s| && r == s[|s| - |r|..]
    ensures forall i :: 0 <= i < |s| - |r| ==> IsSpace(s[i])
    ensures r != [] ==> !IsSpace(r[0])
  {
    if s != [] && IsSpace(s[0]) then TrimStart(s[1..]) else s
  }

  /** `s.rstrip(chars)` for the characters accepted by `drop`: drop that suffix. */
  function TrimEndBy(s: string, drop: char -> bool): (r: string)
    ensures |r| <= |s| && r == s[..|r|]
    ensures forall i :: |r| <= i < |s| ==> drop(s[i])
    ensures r != [] ==> !drop(r[|r| - 1])
  {
    if s != [] && drop(s[|s| - 1]) then TrimEndBy(s[..|s| - 1], drop) else s
  }

  /** `s.strip()`: drop whitespace at both ends. */
  function Strip(s: string): (r: string)
    ensures r != [] ==> !IsSpace(r[0]) && !IsSpace(r[|r| - 1])
    ensures exists a, b :: 0 <= a <= b <= |s| && r == s[a..b]
  {
    var t := TrimStart(s);
    var r := TrimEndBy(t, IsSpace);
    assert r == s[|s| - |t|..|s| - |t| + |r|];
    r
  }

  /** `s.replace(c, "")` for a single character `c`. */
  function RemoveChar(s: string, c: char): (r: string)
    ensures |r| <= |s|
    ensures forall i :: 0 <= i < |r| ==> r[i] != c
    ensures forall d :: d != c ==> multiset(r)[d] == multiset(s)[d]
  {
    if s == [] then []
    else
      var rest := RemoveChar(s[..|s| - 1], c);
      assert s == s[..|s| - 1] + [s[|s| - 1]];
      if s[|s| - 1] == c then rest else rest + [s[|s| - 1]]
  }

  predicate IsDigit(c: char) {
    '0' <= c <= '9'
  }

  /** `s.isdigit()` restricted to ASCII digits: non-empty and digits only. */
  predicate IsDigits(s: string) {
    s != [] && forall i :: 0 <= i < |s| ==> IsDigit(s[i])
  }

  function DigitValue(c: char): nat
    requires IsDigit(c)
  {
    (c as int - '0' as int) as nat
  }

  function DigitChar(d: nat): (c: char)
    requires d < 10
    ensures IsDigit(c) && DigitValue(c) == d
  {
    ('0' as int + d) as char
  }

  /** `int(s)` for a string of decimal digits. */
  function DigitsValue(s: string): nat
    requires forall i :: 0 <= i < |s| ==> IsDigit(s[i])
  {
    if s == [] then 0 else DigitsValue(s[..|s| - 1]) * 10 + DigitValue(s[|s| - 1])
  }

  /** `str(n)` for a natural number: shortest decimal rendering. */
  function Decimal(n: nat): (r: string)
    ensures IsDigits(r)
    ensures DigitsValue(r) == n
    ensures r[0] == '0' ==> n == 0
  {
    if n < 10 then [DigitChar(n)]
    else
      var p := Decimal(n / 10);
      var r := p + [DigitChar(n % 10)];
      assert r[..|r| - 1] == p;
      r
  }

  /** `str(i)` for a Python int. */
  function IntToString(i: int): (r: string)
    ensures r != []
    ensures i >= 0 ==> IsDigits(r) && DigitsValue(r) == i
    ensures i < 0 ==> r[0] == '-' && IsDigits(r[1..]) && DigitsValue(r[1..]) == -i
  {
    if i < 0 then "-" + Decimal(-i) else Decimal(i)
  }

  /** ASCII lower-casing. */
  function Lower(c: char): char {
    if 'A' <= c <= 'Z' then (c as int + 32) as char else c
  }
}

=== FILE: usage.dfy ===
/** Usage arithmetic, level classification and user-input parsing
    (bot.py:290-294 and 427-471). */
module Usage {
  import opened Wrappers
  import opened Text
  import opened Json

  // ---------------------------------------------------------------------
  // Percentages and levels
  // ---------------------------------------------------------------------

  /** `compute_percent(used, total)` in exact arithmetic: no percentage for a
      non-positive total, otherwise `floor(100 * used / total)`. */
  function ComputePercent(used: int, total: int): (r: Option<int>)
    ensures r == None <==> total <= 0
    ensures r.Some? ==> r.value * total <= 100 * used < (r.value + 1) * total
  {
    if total <= 0 then None
    else
      var q := (100 * used) / total;
      assert q * total + (100 * used) % total == 100 * used;
      Some(q)
  }

  lemma MulLess(a: int, b: int, t: int)
    requires t > 0 && a * t < b * t
    ensures a < b
  {
    assert (b - a) * t == b * t - a * t;
  }

  /** For a fixed positive total the percentage never drops as usage grows. */
  lemma PercentMonotone(u1: int, u2: int, total: int)
    requires total > 0 && u1 <= u2
    ensures ComputePercent(u1, total).value <= ComputePercent(u2, total).value
  {
    var p1 := ComputePercent(u1, total).value;
    var p2 := ComputePercent(u2, total).value;
    assert p1 * total <= 100 * u1 <= 100 * u2 < (p2 + 1) * total;
    MulLess(p1, p2 + 1, total);
  }

  /** Truncation, not rounding: any usage strictly below `p` percent of the
      total reports less than `p`. */
  lemma PercentTruncates(used: int, total: int, p: int)
    requires total > 0 && 100 * used < p * total
    ensures ComputePercent(used, total).value < p
  {
    var q := ComputePercent(used, total).value;
    assert q * total <= 100 * used < p * total;
    MulLess(q, p, total);
  }

  /** The levels `classify_level` returns; `alert_state` stores them as the
      texts `ok`, `warn` and `critical`. */
  datatype Level = Ok | Warn | Critical

  /** `classify_level(pct, warn, critical)`: unknown usage gives no level;
      otherwise `critical` is tested first, then `warn`, both inclusive. */
  function Classify(pct: Option<int>, warn: int, critical: int): (r: Option<Level>)
    ensures r == None <==> pct == None
    ensures r == Some(Critical) <==> pct.Some? && pct.value >= critical
    ensures r == Some(Warn) <==> pct.Some? && critical > pct.value >= warn
    ensures r == Some(Ok) <==> pct.Some? && pct.value < critical && pct.value < warn
  {
    match pct
    case None => None
    case Some(p) =>
      if p >= critical then Some(Critical)
      else if p >= warn then Some(Warn)
      else Some(Ok)
  }

  function Severity(l: Option<Level>): nat {
    match l
    case None => 0
    case Some(Ok) => 1
    case Some(Warn) => 2
    case Some(Critical) => 3
  }

  /** Whatever the thresholds, a higher percentage never gives a milder level. */
  lemma ClassifyMonotone(p1: int, p2: int, warn: int, critical: int)
    requires p1 <= p2
    ensures Severity(Classify(Some(p1), warn, critical)) <= Severity(Classify(Some(p2), warn, critical))
  {
  }

  /** With `critical < warn` (settings the threshold form would refuse), a
      percentage in `[critical, warn)` already reports `critical`, and `warn`
      can never be reported. */
  lemma CriticalBeforeWarn(p: int, warn: int, critical: int)
    requires critical < warn
    ensures p >= critical ==> Classify(Some(p), warn, critical) == Some(Critical)
    ensures Classify(Some(p), warn, critical) != Some(Warn)
  {
  }

  // ---------------------------------------------------------------------
  // Threshold input: `parse_percent`
  // ---------------------------------------------------------------------

  /** ARABIC PERCENT SIGN, removed along with `%`. */
  const ArabicPercent: char := '\U{066A}'

  /** The text `parse_percent` inspects: stripped first, then both percent
      signs removed. */
  function PercentDigits(text: string): string {
    RemoveChar(RemoveChar(Strip(text), '%'), ArabicPercent)
  }

  /** `parse_percent(text)`: a whole number from 1 to 100, written in digits
      with optional percent signs and surrounding whitespace. */
  function ParsePercent(text: string): (r: Option<int>)
    ensures r.Some? <==> IsDigits(PercentDigits(text)) && 1 <= DigitsValue(PercentDigits(text)) <= 100
    ensures r.Some? ==> 1 <= r.value <= 100 && r.value == DigitsValue(PercentDigits(text))
  {
    var t := PercentDigits(text);
    if !IsDigits(t) then None
    else
      var n := DigitsValue(t);
      if n < 1 || n > 100 then None else Some(n)
  }

  lemma {:induction false} RemoveAbsentChar(s: string, c: char)
    requires forall i :: 0 <= i < |s| ==> s[i] != c
    ensures RemoveChar(s, c) == s
  {
    if s != [] {
      RemoveAbsentChar(s[..|s| - 1], c);
      assert s == s[..|s| - 1] + [s[|s| - 1]];
    }
  }

  lemma StripDigits(s: string)
    requires IsDigits(s)
    ensures Strip(s) == s
  {
    assert TrimStart(s) == s;
    assert TrimEndBy(s, IsSpace) == s;
  }

  /** Round trip with the settings form: every percentage the form can hold,
      typed as its decimal digits, parses back to itself. */
  lemma ParsePercentDecimal(n: int)
    requires 1 <= n <= 100
    ensures ParsePercent(Decimal(n)) == Some(n)
  {
    var d := Decimal(n);
    StripDigits(d);
    RemoveAbsentChar(d, '%');
    RemoveAbsentChar(d, ArabicPercent);
  }

  lemma RemoveCharSnoc(s: string, c: char, x: char)
    ensures RemoveChar(s + [x], c) == RemoveChar(s, c) + (if x == c then [] else [x])
  {
    assert (s + [x])[..|s|] == s;
  }

  lemma StripDigitsWithSign(d: string, sign: char)
    requires IsDigits(d) && !IsSpace(sign)
    ensures Strip(d + [sign]) == d + [sign]
  {
    var s := d + [sign];
    assert TrimStart(s) == s;
    assert TrimEndBy(s, IsSpace) == s;
  }

  lemma RemoveSigns(d: string, sign: char)
    requires IsDigits(d) && (sign == '%' || sign == ArabicPercent)
    ensures RemoveChar(RemoveChar(d + [sign], '%'), ArabicPercent) == d
  {
    RemoveAbsentChar(d, '%');
    RemoveAbsentChar(d, ArabicPercent);
    RemoveCharSnoc(d, '%', sign);
    if sign == ArabicPercent {
      RemoveCharSnoc(d, ArabicPercent, sign);
    }
  }

  /** The same with a trailing percent sign, Latin or Arabic. */
  lemma ParsePercentWithSign(n: int, sign: char)
    requires 1 <= n <= 100
    requires sign == '%' || sign == ArabicPercent
    ensures ParsePercent(Decimal(n) + [sign]) == Some(n)
  {
    var d := Decimal(n);
    StripDigitsWithSign(d, sign);
    RemoveSigns(d, sign);
    assert PercentDigits(d + [sign]) == d;
  }

  /** Zero, and anything above 100, is refused even though it is all digits. */
  lemma ParsePercentOutOfRange(n: int)
    requires n == 0 || n > 100
    ensures ParsePercent(Decimal(n)) == None
  {
    var d := Decimal(n);
    StripDigits(d);
    RemoveAbsentChar(d, '%');
    RemoveAbsentChar(d, ArabicPercent);
  }

  // ---------------------------------------------------------------------
  // Panel URL input
  // ---------------------------------------------------------------------

  predicate IsSlash(c: char) {
    c == '/'
  }

  /** `normalize_panel_url(url)`: stripped, then every trailing `/` dropped. */
  function NormalizePanelUrl(url: string): (r: string)
    ensures |r| <= |Strip(url)| && r == Strip(url)[..|r|]
    ensures forall i :: |r| <= i < |Strip(url)| ==> Strip(url)[i] == '/'
    ensures r == [] || r[|r| - 1] != '/'
  {
    TrimEndBy(Strip(url), IsSlash)
  }

  /** One character of the pattern under `re.I`: ASCII case is ignored, and
      Python also folds LATIN SMALL LETTER LONG S onto `s`. */
  predicate MatchesIgnoreCase(c: char, p: char) {
    Lower(c) == Lower(p) || (Lower(p) == 's' && c == '\U{017F}')
  }

  predicate StartsWithPattern(s: string, p: string) {
    |p| <= |s| && forall i :: 0 <= i < |p| ==> MatchesIgnoreCase(s[i], p[i])
  }

  /** `is_valid_url(url)`: the stripped text starts with `http://` or
      `https://`, in any letter case. */
  function IsValidUrl(url: string): (r: bool)
    ensures r <==> StartsWithPattern(Strip(url), "http://") || StartsWithPattern(Strip(url), "https://")
  {
    var t := Strip(url);
    StartsWithPattern(t, "http://") || StartsWithPattern(t, "https://")
  }

  lemma PrefixKeepsPattern(t: string, s: string, p: string)
    requires |t| <= |s| && t == s[..|t|]
    ensures StartsWithPattern(t, p) ==> StartsWithPattern(s, p)
  {
    if StartsWithPattern(t, p) {
      forall i | 0 <= i < |p|
        ensures MatchesIgnoreCase(s[i], p[i])
      {
        assert s[i] == t[i];
      }
    }
  }

  /** A URL the form accepts after normalising was already valid as typed. */
  lemma NormalizedValidWasValid(url: string)
    ensures IsValidUrl(NormalizePanelUrl(url)) ==> IsValidUrl(url)
  {
    var s := Strip(url);
    var n := NormalizePanelUrl(url);
    var t := Strip(n);
    StripOfPrefix(s, n);
    PrefixKeepsPattern(t, s, "http://");
    PrefixKeepsPattern(t, s, "https://");
  }

  /** Stripping a prefix of stripped text only drops a suffix of it. */
  lemma StripOfPrefix(s: string, n: string)
    requires s != [] ==> !IsSpace(s[0])
    requires |n| <= |s| && n == s[..|n|]
    ensures |Strip(n)| <= |s| && Strip(n) == s[..|Strip(n)|]
  {
    if n != [] {
      assert n[0] == s[0];
    }
    assert TrimStart(n) == n;
    var t := Strip(n);
    assert t == TrimEndBy(n, IsSpace);
    assert t == n[..|t|];
  }

  lemma StripUnspaced(u: string)
    requires u != [] && !IsSpace(u[0]) && !IsSpace(u[|u| - 1])
    ensures Strip(u) == u
  {
    assert TrimStart(u) == u;
    assert TrimEndBy(u, IsSpace) == u;
  }

  lemma TrimSchemeSlashes()
    ensures TrimEndBy("http://", IsSlash) == "http:"
  {
    assert "http://"[..6] == "http:/";
    assert "http:/"[..5] == "http:";
    assert TrimEndBy("http:", IsSlash) == "http:";
  }

  /** The converse fails: a URL that is a bare scheme, such as `http://`,
      is valid as typed but loses its slashes and is refused once normalised. */
  lemma BareSchemeRefusedAfterNormalizing(url: string)
    requires Strip(url) == "http://"
    ensures IsValidUrl(url) && !IsValidUrl(NormalizePanelUrl(url))
  {
    assert StartsWithPattern(Strip(url), "http://");
    TrimSchemeSlashes();
    var n := NormalizePanelUrl(url);
    assert n == "http:";
    StripUnspaced(n);
  }

  // ---------------------------------------------------------------------
  // Reading usage out of a detail record
  // ---------------------------------------------------------------------

  /** `int(t)` / `float(t)` on the text of an optionally signed decimal
      integer (the text is already stripped). */
  function ParseIntText(t: string): (r: Option<int>)
    ensures IsDigits(t) ==> r == Some(DigitsValue(t))
    ensures t == [] ==> r == None
  {
    if IsDigits(t) then Some(DigitsValue(t))
    else if |t| >= 2 && (t[0] == '+' || t[0] == '-') && IsDigits(t[1..]) then
      var v: int := DigitsValue(t[1..]);
      Some(if t[0] == '-' then -v else v)
    else None
  }

  /** `float(x)` on a decoded value, `None` where Python raises: numbers and
      booleans convert, strings when they spell an integer, nothing else. */
  function ToNumber(j: Json): (r: Option<int>)
    ensures j.JInt? ==> r == Some(j.n)
    ensures j.JNull? || j.JList? || j.JObj? ==> r == None
  {
    match j
    case JInt(n) => Some(n)
    case JBool(b) => Some(if b then 1 else 0)
    case JStr(s) => ParseIntText(Strip(s))
    case _ => None
  }

  /** `to_int(x, default)` */
  function ToInt(j: Json, default: int): (r: int)
    ensures ToNumber(j).Some? ==> r == ToNumber(j).value
    ensures ToNumber(j).None? ==> r == default
  {
    match ToNumber(j)
    case Some(n) => n
    case None => default
  }

  /** `int(str(i))`: the text Python prints for an int converts back to it. */
  lemma ParseIntTextRoundTrip(i: int)
    ensures ParseIntText(IntToString(i)) == Some(i)
  {
    var t := IntToString(i);
    if i < 0 {
      assert !IsDigits(t) by { assert !IsDigit(t[0]); }
    }
  }

  /** A usage value the panel sends as the text of an int, as `str(i)` prints
      it, converts to that int, just as the int itself does. */
  lemma ToNumberPrinted(i: int)
    ensures ToNumber(JStr(PyStr(JInt(i)))) == ToNumber(JInt(i)) == Some(i)
    ensures ToInt(JStr(PyStr(JInt(i))), 0) == i
  {
    var t := IntToString(i);
    assert PyStr(JInt(i)) == t;
    if i < 0 {
      assert t[|t| - 1] == t[1..][|t| - 2];
    }
    SignOrDigitNotSpace(t[0]);
    SignOrDigitNotSpace(t[|t| - 1]);
    StripUnspaced(t);
    ParseIntTextRoundTrip(i);
  }

  lemma SignOrDigitNotSpace(c: char)
    requires IsDigit(c) || c == '-'
    ensures !IsSpace(c)
  {
  }

  /** `info.get(a1) or info.get(a2) or ... or info.get(an)`: the first truthy
      value, or the last alias's value when none is truthy. */
  function OrChain(info: Json, aliases: seq<string>): Json
    requires aliases != []
  {
    var v := GetKey(info, aliases[0]);
    if |aliases| == 1 || Truthy(v) then v else OrChain(info, aliases[1..])
  }

  lemma {:induction false} OrChainFirstTruthy(info: Json, aliases: seq<string>, i: nat)
    requires i < |aliases|
    requires Truthy(GetKey(info, aliases[i]))
    requires forall j :: 0 <= j < i ==> !Truthy(GetKey(info, aliases[j]))
    ensures OrChain(info, aliases) == GetKey(info, aliases[i])
  {
    if i > 0 {
      OrChainFirstTruthy(info, aliases[1..], i - 1);
    }
  }

  lemma {:induction false} OrChainNoneTruthy(info: Json, aliases: seq<string>)
    requires aliases != []
    requires forall j :: 0 <= j < |aliases| ==> !Truthy(GetKey(info, aliases[j]))
    ensures OrChain(info, aliases) == GetKey(info, aliases[|aliases| - 1])
  {
    if |aliases| > 1 {
      OrChainNoneTruthy(info, aliases[1..]);
    }
  }

  /** `a1 or ... or an or fallback`: the chain is truthy exactly when some
      alias value is, and then it is the first truthy one. */
  lemma OrChainTruthyIff(info: Json, aliases: seq<string>)
    requires aliases != []
    ensures Truthy(OrChain(info, aliases)) <==> exists i :: 0 <= i < |aliases| && Truthy(GetKey(info, aliases[i]))
    ensures forall i :: 0 <= i < |aliases| && Truthy(GetKey(info, aliases[i]))
                        && (forall j :: 0 <= j < i ==> !Truthy(GetKey(info, aliases[j]))) ==>
              OrChain(info, aliases) == GetKey(info, aliases[i])
  {
    forall i | 0 <= i < |aliases| && Truthy(GetKey(info, aliases[i]))
                && (forall j :: 0 <= j < i ==> !Truthy(GetKey(info, aliases[j])))
      ensures OrChain(info, aliases) == GetKey(info, aliases[i])
    {
      OrChainFirstTruthy(info, aliases, i);
    }
    if forall j :: 0 <= j < |aliases| ==> !Truthy(GetKey(info, aliases[j])) {
      OrChainNoneTruthy(info, aliases);
    } else {
      var i :| 0 <= i < |aliases| && Truthy(GetKey(info, aliases[i]));
      FirstTruthyExists(info, aliases, i);
    }
  }

  /** Below a truthy alias there is a first one. */
  lemma {:induction false} FirstTruthyExists(info: Json, aliases: seq<string>, i: nat)
    requires i < |aliases| && Truthy(GetKey(info, aliases[i]))
    ensures Truthy(OrChain(info, aliases))
  {
    if !Truthy(GetKey(info, aliases[0])) {
      assert |aliases| > 1;
      assert aliases[1..][i - 1] == aliases[i];
      FirstTruthyExists(info, aliases[1..], i - 1);
    }
  }

  datatype Resource = Disk | Bandwidth

  /** The legacy field names, in the order they are tried. */
  function UsedAliases(r: Resource): seq<string> {
    match r
    case Disk => ["disk_used", "used_disk", "hdd_used", "used_hdd"]
    case Bandwidth => ["bandwidth_used", "bw_used", "used_bandwidth", "used_bw"]
  }

  function TotalAliases(r: Resource): seq<string> {
    match r
    case Disk => ["disk", "vps_disk", "hdd", "total_hdd"]
    case Bandwidth => ["bandwidth", "bw", "total_bandwidth", "total_bw"]
  }

  /** `extract_disk_usage(info)` / `extract_bw_usage(info)`: the `(used, total)`
      pair, or `None` for Python's `(None, None)`. */
  function ExtractUsage(info: Json, res: Resource): (r: Option<(int, int)>)
    ensures r.Some? <==> ToNumber(OrChain(info, UsedAliases(res))).Some?
                         && ToNumber(OrChain(info, TotalAliases(res))).Some?
    ensures r.Some? ==> r.value == (ToNumber(OrChain(info, UsedAliases(res))).value,
                                    ToNumber(OrChain(info, TotalAliases(res))).value)
  {
    var used := ToNumber(OrChain(info, UsedAliases(res)));
    var total := ToNumber(OrChain(info, TotalAliases(res)));
    if used.Some? && total.Some? then Some((used.value, total.value)) else None
  }

  /** A usage field missing under every alias gives no usage at all. */
  lemma MissingUsageIsNone(info: Json, res: Resource)
    requires forall j :: 0 <= j < 4 ==> GetKey(info, UsedAliases(res)[j]) == JNull
    ensures ExtractUsage(info, res) == None
  {
    OrChainNoneTruthy(info, UsedAliases(res));
  }

  /** A zero under an earlier alias falls through to a later, non-zero one. */
  lemma ZeroFallsThrough(info: Json, res: Resource, i: nat)
    requires i < 4
    requires forall j :: 0 <= j < i ==> GetKey(info, UsedAliases(res)[j]) == JInt(0)
    requires GetKey(info, UsedAliases(res)[i]).JInt? && GetKey(info, UsedAliases(res)[i]).n != 0
    ensures ToNumber(OrChain(info, UsedAliases(res))) == Some(GetKey(info, UsedAliases(res)[i]).n)
  {
    OrChainFirstTruthy(info, UsedAliases(res), i);
  }

  /** bot.py:919-920: a percentage only when both used and total are non-zero. */
  function UsagePercent(usage: Option<(int, int)>): (r: Option<int>)
    ensures usage.None? ==> r.None?
    ensures usage.Some? && (usage.value.0 == 0 || usage.value.1 <= 0) ==> r.None?
    ensures usage.Some? && usage.value.0 != 0 && usage.value.1 > 0 ==>
              r == ComputePercent(usage.value.0, usage.value.1)
  {
    match usage
    case None => None
    case Some((used, total)) =>
      if used != 0 && total != 0 then ComputePercent(used, total) else None
  }

  /** Zero usage is unknown, not `ok`: it classifies as no level at all. */
  lemma ZeroUsedIsUnknown(total: int, warn: int, critical: int)
    ensures Classify(UsagePercent(Some((0, total))), warn, critical) == None
  {
  }
}
